=== FILE: README.md ===
# card-app in Dafny

A model of the logic of a small card manager: an Express/Mongoose back end
that stores card documents and maps failures to HTTP responses, and a React
client that masks and formats the card form as the user types and keeps the
stored card list in step with the server's answers.

Everything is written as pure functions over immutable values:

- `Wrappers`, `Seqs`, `Text`: `Option`/`Result`, an order-preserving
  `Filter`, the regular-expression character classes `\d` and `\s`, and
  decimal rendering and parsing.
- `Js`: JavaScript values crossing the HTTP boundary (JSON plus `undefined`).
  It also covers truthiness, `||`, `??` and property read, write and delete.
  `Http`: a server `Response` and what `fetch` hands the client (`Reply`).
- `Formatted`: `formatExpiryt`, `masknumber`, `lengthCheck`.
- `CardForm`: the `useCard` hook. Each handler is one step from the hook
  state (form record, error map, error flag) to the next.
- `Middleware`: `errorHandler`, `createError`, `unknownEndpoint`.
- `CardModel`: the schema as a validity predicate plus the errors `save`
  raises, and the `toJSON` transform.
- `CardController`: `getAllCards`, `createCard`, `editCard`, `deletCard` over
  a store passed in explicitly. The store is the collection's documents in
  natural order. Its invariant is that `_id` and `cardId` are unique.
- `UseCards`, `UseFetch`: the two list hooks as state-step functions. Each
  network answer is an input `Reply`.

Ambient inputs are parameters. `new Date().getFullYear()` is `currentYear`,
`process.env.NODE_ENV === 'development'` is `development`, and the `_id` the
driver generates for a new document is `newId`.

Some of the code's own comments promise more than the code does. The model
follows the code:
- front-end/src/utils/formatted.js:7 says `formatExpiryt` checks the month
  (01..12) and the year (22..50). That check is commented out, so every
  input is formatted.
- front-end/src/hooks/userCard.js:109 speaks of a window from the current
  year to five years on. The code accepts `[22, currentYear % 100 + 5]`, and
  an expiry that fails the month or year check is still stored.
- front-end/src/hooks/userCard.js:20 speaks of 3-4 digits for the CVC and
  line 132 of a limit of 4 digits. The code keeps any value of at most four
  characters, digits or not.

Other facts of the code the model keeps:
- besides `_id`, the schema's only unique path is `cardId`, with none on `cardNumber`;
- the server checks no number, expiry or CVC format and accepts a card
  number already stored;
- `editCard` answers 200 with `null` for an unknown id.

## Model

| member | source | states |
|---|---|---|
| Formatted.FormatExpiry | front-end/src/utils/formatted.js:11-27 | Inputs of at most two characters come back unchanged. Longer ones get '/' at index 2, are at most 5 long, and give back the input's first four characters once the slash is removed. No month or year is rejected. |
| Formatted.FormatExpiryDropsTail | front-end/src/utils/formatted.js:13-15 | Characters past the fourth never influence the result. |
| Formatted.MaskNumber | front-end/src/utils/formatted.js:29-39 | Let s be the number without whitespace. The call fails (RangeError) exactly when s has fewer than 6 characters. Otherwise the mask has s's length, s's first 2 and last 4 characters, and '*' everywhere in between. |
| Formatted.MaskNumberIgnoresWhitespace | front-end/src/utils/formatted.js:33 | Inserting whitespace anywhere in the number leaves the mask (or the failure) unchanged. |
| Formatted.LengthCheckAccepts | front-end/src/utils/formatted.js:40-42 | lengthCheck is false exactly when the non-whitespace characters number 16 and are all ASCII digits. |
| Formatted.LengthCheckIgnoresWhitespace | front-end/src/utils/formatted.js:41 | Inserting whitespace never changes lengthCheck's verdict. |
| CardForm.SpaceGroupsLayout | front-end/src/hooks/userCard.js:72 | On a digit string the grouping regex puts a space exactly at every fifth position. The digits appear in order elsewhere, the length is n + (n-1)/4 for n digits, and there is no trailing space. |
| CardForm.SpaceGroupsStrip | front-end/src/hooks/userCard.js:72 | Removing the spaces from the grouped number gives back the digits. |
| CardForm.NumberChange | front-end/src/hooks/userCard.js:64-74 | More than 16 digits leave the state unchanged. Otherwise the stored number is the input's digits grouped in fours: a space exactly at every fifth position, the digits in order elsewhere, n + (n-1)/4 characters for n digits, no trailing space. Stripped of spaces it equals the digits, and lengthCheck on it is false iff there are 16 digits. Errors and every other field are untouched. |
| CardForm.ExpiryChange | front-end/src/hooks/userCard.js:81-124 | A value longer than 5 is ignored. Otherwise the input's digits are stored, formatted as formatExpiryt does, valid or not. For a complete MM/YY the month error is set iff the month is outside 1..12. With a valid month the year error is set iff the year is outside 22..currentYear%100+5. The error is empty iff both pass, and shorter values clear it. Every other error entry keeps its key and value, and every other field and the error flag are untouched. |
| CardForm.CvcChange | front-end/src/hooks/userCard.js:131-135 | A value longer than 4 is ignored. Otherwise it is stored verbatim, digits or not. Only cvc changes: errors and the error flag are untouched. |
| CardForm.NameChange | front-end/src/hooks/userCard.js:142-148 | A value longer than 20 is ignored. Otherwise each character of the allowed class (letters, Latin-1 letters, whitespace) is kept as often as it occurs in the input, and every other character is dropped. The name is at most 20 long, and only name changes. |
| CardForm.NameChangeKeepsOrder | front-end/src/hooks/userCard.js:146 | The kept characters stay in input order: the name for a + b is the name for a followed by the name for b. |
| CardForm.InputChange | front-end/src/hooks/userCard.js:34-57 | Every key other than the input's name keeps its value. Only an expiry input touches the errors, and the error flag never changes. Unknown names store the value verbatim. |
| CardForm.InputFocus | front-end/src/hooks/userCard.js:154-156 | focus becomes the target's name and nothing else changes. |
| CardForm.Reset | front-end/src/hooks/userCard.js:161-171 | All five fields become "" and no other key remains. Errors are emptied and the error flag is lowered. |
| Middleware.Classify | back-end/src/utils/middleware.js:24-104 | Every answer has success false. Priority order: CastError gives 400 "Formato de ID inválido", whatever else the error carries. ValidationError gives 400 with one {field, message, value} per entry, in order. Code 11000 gives 409 naming the first key and value. Network errors give 503 and timeouts 408. A non-zero status gives that status with the message or the fallback text. Anything else gives 500, with details and stack present only in development. |
| Middleware.ValidationResponse | back-end/src/utils/middleware.js:43-55 | The validation list has one entry per error, each built from that error's path, message and value. |
| Middleware.DuplicateResponse | back-end/src/utils/middleware.js:58-67 | 409 whose details name the first keyValue entry ("undefined" when there is none). |
| Middleware.InternalResponse | back-end/src/utils/middleware.js:95-103 | 500 with the generic message. details is the error's message and stack its stack in development, and both are absent otherwise. |
| Middleware.CreateError | back-end/src/utils/middleware.js:112-116 | The error carries the message and the given status, 500 by default. |
| Middleware.CreatedErrorClassified | back-end/src/utils/middleware.js:88-116 | An error from createError with a positive status is answered with that status and its own message. An empty message gets the fallback. The default 500 keeps the caller's message. |
| Middleware.UnknownEndpoint | back-end/src/utils/middleware.js:6-13 | 404 with success false, "Endpoint no encontrado" and the requested path and method echoed. |
| CardModel.PathCheck | back-end/src/models/card.model.js:4-29 | A path fails exactly when it is missing or empty, or longer than its maxlength when it has one. At most one error is reported per path. |
| CardModel.Violations | back-end/src/models/card.model.js:3-31 | No violation iff all five fields are present and non-empty and cardNumber ≤ 16, name ≤ 20, expiry ≤ 5 and cvc ≤ 4; cardId is unbounded. The entries' paths are exactly the failing paths, once each, in schema order (cardId, cardNumber, name, expiry, cvc). |
| CardModel.DuplicateKey | back-end/src/models/card.model.js:7 | A unique-index clash is a code-11000 error whose keyValue names the path and value. |
| CardModel.ToJson | back-end/src/models/card.model.js:33-39 | id is the text of _id, and _id and __v are absent. Every other property equals the document's own. |
| CardModel.ToJsonFields | back-end/src/models/card.model.js:33-39 | The serialised document carries the five stored fields unchanged. |
| CardController.GetAllCards | back-end/src/controllers/card.controller.js:5-8 | 200 with a body holding only data. data lists every stored document serialised, in order. |
| CardController.GetAllCardsEmpty | back-end/src/test/api.test.js:24-28 | An empty store answers exactly {data: []}. |
| CardController.CreateCard | back-end/src/controllers/card.controller.js:10-27 | An invalid document goes to next as a ValidationError listing its violations, and the store is unchanged. A taken _id or cardId goes to next as a code-11000 error, store unchanged. Otherwise the store gains exactly the new document (the body's five fields, version 0) at the end and the answer is 201 with its JSON. Uniqueness and validity of the store are preserved. |
| CardController.CreateIgnoresOtherFields | back-end/src/controllers/card.controller.js:12-21 | Two bodies that agree on the five schema fields give the same outcome. |
| CardController.CreateDuplicateAnswered | back-end/src/controllers/card.controller.js:22-26 | A duplicate cardId reaches the error handler and is answered 409 "Ya existe un registro con cardId: …". |
| CardController.CreateInvalidAnswered | back-end/src/controllers/card.controller.js:22-26 | An invalid document reaches the error handler and is answered 400 with one entry per failing path. |
| CardController.CreateAllowsSharedShortNumber | back-end/src/models/card.model.js:9-13 | A cardNumber already stored is accepted again under a new cardId. There is no uniqueness or format check on it. |
| CardController.CreateNineDigitNumber | back-end/src/test/api.test.js:29-36 | The test's nine-digit card is created on an empty store with 201, echoing the name. |
| CardController.Patch | back-end/src/controllers/card.controller.js:31-32 | Exactly the schema fields present in the body change. _id and __v are kept. |
| CardController.EditCard | back-end/src/controllers/card.controller.js:28-35 | An unknown id answers 200 with null and leaves the store as it was. A cardId held by another document is rejected uncaught, store unchanged. Otherwise only the matching document is replaced by its patched version and the answer is 200 with that post-update document. Uniqueness is preserved. |
| CardController.EditSkipsValidation | back-end/src/controllers/card.controller.js:32 | An edit can store a 21-character name, breaking the schema, and still answer 200. |
| CardController.DeleteCard | back-end/src/controllers/card.controller.js:37-41 | 204 with no body whether or not the id existed. An unknown id leaves the store as it was. In a store with unique ids the matching document is cut out and the documents before and after it stay in order. Afterwards no document has that id. Uniqueness and validity are preserved. |
| CardController.DeleteKeepsOrder | back-end/src/controllers/card.controller.js:39 | Deleting from a + b gives the deletion from a followed by the deletion from b, so the remaining documents keep store order. |
| UseCards.MakeRequest | front-end/src/hooks/useCards.js:22-46 | A non-ok status fails with "HTTP status: text". 204 gives {success: true} without reading the body. Otherwise the parsed body is returned, and a parse or network failure is rethrown with its message. |
| UseCards.CardList | front-end/src/hooks/useCards.js:59-67 | Reading data off a null response throws a TypeError. So does reading _id of a null first card in a non-empty list. Otherwise the list is data, or [] when data is falsy. |
| UseCards.FetchCards | front-end/src/hooks/useCards.js:52-79 | When the request and the reading of its response succeed, cards becomes response.data (or []) and hasLoaded turns true. On any failure, including the TypeError of a null body, cards becomes [] and the message is recorded. loading is false both ways and hasLoaded never reverts. |
| UseCards.FetchShowsStore | front-end/src/hooks/useCards.js:52-79 | Reading getAllCards' answer makes the local list the stored documents' JSON, in store order, with no error and hasLoaded true. |
| UseCards.AddCard | front-end/src/hooks/useCards.js:88-106 | On success response.data is put in front of the old cards. A null body throws the TypeError of reading data; that and any request failure leave the cards unchanged, and the message is recorded and rethrown. |
| UseCards.DeleteCard | front-end/src/hooks/useCards.js:115-132 | On success no remaining card has that _id, and every other card keeps its multiplicity in the list. On failure the cards are unchanged and the error is recorded and rethrown. |
| UseCards.DeleteKeepsOrder | front-end/src/hooks/useCards.js:124-126 | Deleting from a + b gives the deletion from a followed by the deletion from b, so the surviving cards keep their order. |
| UseCards.DeleteKeepsCardsWithoutUnderscoreId | front-end/src/hooks/useCards.js:124-126 | A card without _id, as the server's toJSON produces, is never removed locally. |
| UseCards.UpdateCard | front-end/src/hooks/useCards.js:142-164 | On success every card with that _id becomes response.data, the others are unchanged and the length is kept. A null body throws the TypeError of reading data; that and any request failure leave the cards unchanged, and the message is recorded and rethrown. |
| UseCards.HasLoadedNeverReverts | front-end/src/hooks/useCards.js:69-71 | Once hasLoaded is true, no sequence of fetches, adds, deletes or updates makes it false. |
| UseFetch.Read | front-end/src/hooks/useFetch.js:38-45 | A non-ok status fails with "HTTP Error: status - text". An ok reply gives its parsed body, and a parse or network failure gives its message. |
| UseFetch.HandleResponseData | front-end/src/hooks/useFetch.js:71-88 | It fails exactly when the method is not DELETE and the body is null or undefined, with the TypeError of reading data. Otherwise: POST keeps the old list as prefix and appends one item, data when truthy, else the whole body. DELETE keeps the list. Any other method replaces it by data, or by [] when data is nullish. |
| UseFetch.FetchData | front-end/src/hooks/useFetch.js:31-64 | On a failed request, or when handleResponseData throws, the list is unchanged, the message is recorded and rethrown, and hasLoaded stays. Otherwise the list is updated as handleResponseData says and hasLoaded is true. loading is false both ways. |
| UseFetch.AddCard | front-end/src/hooks/useFetch.js:95-111 | When the POST and the GET refresh both succeed, the list is exactly the refreshed server list and the POST's body is returned. A failed POST, or one with a null body, changes only the error and no GET follows. A failed GET, or one with a null body, leaves the POST's item appended, records the message and still ends with hasLoaded true, set by the POST. |
| UseFetch.DeleteCard | front-end/src/hooks/useFetch.js:118-136 | A network failure or non-ok status throws and leaves the state untouched, with no error recorded and no refresh. An ok status is followed by a GET that replaces the list and always ends with loading false. A failed GET, or one with a null body, keeps the list and records and rethrows the message. |
| UseFetch.HasLoadedNeverReverts | front-end/src/hooks/useFetch.js:50-53 | Once hasLoaded is true, no sequence of fetches, adds or deletes makes it false. |
| UseFetch.RefreshShowsStore | front-end/src/hooks/useFetch.js:84-86 | Reading getAllCards' answer with a plain fetchData makes the local list the stored documents' JSON, in store order. |
| UseFetch.PostAppendsCreatedDocument | front-end/src/hooks/useFetch.js:73-77 | createCard's 201 body has no data field, so handling it as a POST answer appends the created document's JSON itself. |
| UseFetch.ReadersAgree | front-end/src/hooks/useFetch.js:38-45 | useCards' makeRequest and useFetch's reading succeed on the same replies, with the same value, except an ok 204. useCards answers that with {success: true} without reading the body, while useFetch parses it. The two word a non-ok status differently. Network and parse failures carry the same message. |

## Left out

- String lengths count Unicode code points. JavaScript's `.length` counts UTF-16 code units, so characters outside the Basic Multilingual Plane count once here and twice in the source.
- React rendering, the card flip timers, HTML `maxLength` attributes and the context provider are left out. React's asynchronous batching of state updates is left out too: each handler and each settled request is one atomic step on the current state.
- Express wiring is left out. Only GET and POST `/cards` are routed, so `EditCard` and `DeleteCard` are store operations that nothing in the shown router reaches over HTTP. Route parameters and the CastError a malformed id string would cause are not modelled: ids are `ObjectId` values.
- Whether an uncaught rejection (`Rejected`, from `editCard`) reaches the error handler depends on the Express major version, which is not part of this model.
- The store cannot fail in this model. Connection and timeout errors are never produced by the handlers, though `Classify` maps them. Neither is a failure of `find` in `getAllCards`, which has no `catch`.
- Mongoose casting of non-string body values is left out: request bodies are maps from keys to strings. `_id`, `__v` or `null` values in an edit body are left out too.
- The summary `message` of Mongoose's `ValidationError` and of MongoDB's duplicate-key error is not modelled (`None`): the classifier does not read it for those kinds. The per-path messages follow Mongoose's default templates, which are not part of the repository.
- An error whose `errors` or `keyValue` object is missing altogether (the handler would throw a TypeError) is left out. Both are sequences, and an empty `keyValue` renders "undefined" as `{}` does.
- Middleware.Classify: Node's RangeError for a status outside 100..999 passed to `res.status` is not modelled, so the error's own status is returned as it is.
- `createdAt`/`updatedAt` timestamps do not exist in this code. `ObjectId` generation is the `newId` parameter.
- JSON numbers are integers. Floating point and `NaN` are left out.
- MongoDB's natural order is taken to be insertion order.
- UseCards.CardList: requires `response.data` to be an array or falsy. The source would store any other value as the list and break at the next spread or filter.
- UseCards.FetchCards: requires the same of a parsed GET answer, for the same reason.
- UseFetch.HandleResponseData: requires `jsonData.data` to be an array or nullish for a replacing method (GET, none, or any other than POST and DELETE). The source would store any other value as the list.
- UseFetch.FetchData: requires the same of a parsed answer to a replacing method, for the same reason.
- UseFetch.AddCard: requires the same of the refreshing GET's answer.
- UseFetch.DeleteCard: requires the same of the refreshing GET's answer.
- UseCards.HasLoadedNeverReverts, UseFetch.HasLoadedNeverReverts: the fetches in the sequence carry the same list-shape requirement.
- A property read on a `null` or `undefined` value throws a TypeError whose message is V8's wording. Only the reads the hooks make in their `try` blocks are modelled this way.
- UseCards.DeleteCard: a `null` card in the list makes `card._id` throw inside the state updater, during React's render and outside the hook's `try`. The model reads that card's `_id` as `undefined` and keeps it.
- UseCards.UpdateCard: as for DeleteCard, a `null` card in the list is read as having no `_id` instead of throwing during render.
- Request URLs, headers and bodies sent by the client are left out. So is console logging.
- Formatted.LengthCheck takes `cardData.number` rather than the whole form record, the only field it reads.
- `currentYear` is a natural number, so negative years are not modelled.

=== FILE: card_controller.dfy ===
/** The request handlers (back-end/src/controllers/card.controller.js) over a
    store given explicitly: the collection's documents in natural order. */
module CardController {
  import opened Wrappers
  import opened Seqs
  import opened Js
  import opened Http
  import opened Middleware
  import opened CardModel

  type Store = seq<Card>

  /** How a handler finishes: it writes a response, passes the error to
      `next`, or its promise rejects with an error it never catches. */
  datatype Outcome = Respond(res: Response) | Next(err: AppError) | Rejected(err: AppError)

  predicate DistinctIds(a: Card, b: Card) {
    a.id != b.id
  }

  predicate DistinctCardIds(a: Card, b: Card) {
    a.cardId != b.cardId
  }

  /** The collection's indexes hold: `_id` and `cardId` are unique. */
  ghost predicate Unique(store: Store) {
    Pairwise(DistinctIds, store) && Pairwise(DistinctCardIds, store)
  }

  /** Every document satisfies the schema. */
  ghost predicate AllValid(store: Store) {
    forall i :: 0 <= i < |store| ==> Valid(store[i].AsDraft())
  }

  predicate HasId(store: Store, id: ObjectId) {
    exists i :: 0 <= i < |store| && store[i].id == id
  }

  predicate HasCardId(store: Store, cardId: string) {
    exists i :: 0 <= i < |store| && store[i].cardId == cardId
  }

  /** `getAllCards`: 200 with `{data: [...]}`, every document serialised, in order. */
  function GetAllCards(store: Store): (r: Response)
    ensures r.status == 200
    ensures var data := Prop(r.body, "data");
      && data.Arr? && |data.items| == |store|
      && forall i :: 0 <= i < |store| ==> data.items[i] == ToJson(store[i])
    ensures forall k :: k != "data" ==> Prop(r.body, k) == Undefined
  {
    var items := seq(|store|, i requires 0 <= i < |store| => ToJson(store[i]));
    var fields := [Field("data", Arr(items))];
    assert forall k :: k != "data" ==> LookupFrom(fields, k, 0) == Undefined by {
      forall k | k != "data" {
        LookupAbsent(fields, k, 0);
      }
    }
    Response(200, Obj(fields))
  }

  /** An empty collection answers `{data: []}`. */
  lemma GetAllCardsEmpty()
    ensures GetAllCards([]) == Response(200, Obj([Field("data", Arr([]))]))
  {
  }

  /** The document `createCard` builds: only the five schema fields of the body. */
  function DraftOf(body: map<string, string>): Draft {
    Draft(
      if "cardId" in body then Some(body["cardId"]) else None,
      if "cardNumber" in body then Some(body["cardNumber"]) else None,
      if "name" in body then Some(body["name"]) else None,
      if "expiry" in body then Some(body["expiry"]) else None,
      if "cvc" in body then Some(body["cvc"]) else None)
  }

  /** `createCard`: `save` validates the schema, then the unique indexes are
      checked on insert; success answers 201 with the new document. `newId` is
      the `_id` the driver generated for it. */
  function CreateCard(store: Store, body: map<string, string>, newId: ObjectId): (r: (Store, Outcome))
    ensures var d := DraftOf(body);
      && (!Valid(d) ==> r == (store, Next(ValidationFailure(Violations(d)))))
      && (Valid(d) && HasId(store, newId) ==>
            r == (store, Next(DuplicateKey("_id", newId.hex))))
      && (Valid(d) && !HasId(store, newId) && HasCardId(store, d.cardId.value) ==>
            r == (store, Next(DuplicateKey("cardId", d.cardId.value))))
      && (Valid(d) && !HasId(store, newId) && !HasCardId(store, d.cardId.value) ==>
            var doc := Card(newId, 0, d.cardId.value, d.cardNumber.value, d.name.value,
                            d.expiry.value, d.cvc.value);
            r == (store + [doc], Respond(Response(201, ToJson(doc)))))
    ensures Unique(store) ==> Unique(r.0)
    ensures AllValid(store) ==> AllValid(r.0)
  {
    var d := DraftOf(body);
    if !Valid(d) then (store, Next(ValidationFailure(Violations(d))))
    else if HasId(store, newId) then (store, Next(DuplicateKey("_id", newId.hex)))
    else if HasCardId(store, d.cardId.value) then (store, Next(DuplicateKey("cardId", d.cardId.value)))
    else
      var doc := Card(newId, 0, d.cardId.value, d.cardNumber.value, d.name.value,
                      d.expiry.value, d.cvc.value);
      AppendUnique(store, doc);
      (store + [doc], Respond(Response(201, ToJson(doc))))
  }

  lemma AppendUnique(store: Store, doc: Card)
    requires !HasId(store, doc.id) && !HasCardId(store, doc.cardId)
    ensures Unique(store) ==> Unique(store + [doc])
  {
    var s := store + [doc];
    if Unique(store) {
      forall i, j | 0 <= i < j < |s|
        ensures DistinctIds(s[i], s[j]) && DistinctCardIds(s[i], s[j])
      {
        if j == |store| {
          assert s[i] == store[i];
        } else {
          assert s[i] == store[i] && s[j] == store[j];
        }
      }
    }
  }

  /** Body fields other than the five schema fields make no difference. */
  lemma CreateIgnoresOtherFields(store: Store, b1: map<string, string>, b2: map<string, string>, newId: ObjectId)
    requires forall k :: k in {"cardId", "cardNumber", "name", "expiry", "cvc"} ==>
      (k in b1 <==> k in b2) && (k in b1 ==> b1[k] == b2[k])
    ensures CreateCard(store, b1, newId) == CreateCard(store, b2, newId)
  {
    assert DraftOf(b1) == DraftOf(b2);
  }

  /** The position of the document with `_id` equal to `id`, if any. */
  function IndexOf(store: Store, id: ObjectId): (r: Option<nat>)
    ensures r.None? <==> !HasId(store, id)
    ensures r.Some? ==> r.value < |store| && store[r.value].id == id
    ensures r.Some? ==> forall j :: 0 <= j < r.value ==> store[j].id != id
  {
    if store == [] then None
    else if store[0].id == id then Some(0)
    else
      match IndexOf(store[1..], id)
      case None => None
      case Some(k) => Some(k + 1)
  }

  /** `$set` of the schema paths present in the body; other keys are dropped
      by the schema's strict mode, and no validator runs. */
  function Patch(c: Card, body: map<string, string>): (u: Card)
    ensures u.id == c.id && u.version == c.version
    ensures u.cardId == (if "cardId" in body then body["cardId"] else c.cardId)
    ensures u.cardNumber == (if "cardNumber" in body then body["cardNumber"] else c.cardNumber)
    ensures u.name == (if "name" in body then body["name"] else c.name)
    ensures u.expiry == (if "expiry" in body then body["expiry"] else c.expiry)
    ensures u.cvc == (if "cvc" in body then body["cvc"] else c.cvc)
  {
    c.(cardId := if "cardId" in body then body["cardId"] else c.cardId,
       cardNumber := if "cardNumber" in body then body["cardNumber"] else c.cardNumber,
       name := if "name" in body then body["name"] else c.name,
       expiry := if "expiry" in body then body["expiry"] else c.expiry,
       cvc := if "cvc" in body then body["cvc"] else c.cvc)
  }

  /** Another document than the one at `i` already holds `cardId`. */
  predicate TakenByOther(store: Store, i: nat, cardId: string) {
    exists j :: 0 <= j < |store| && j != i && store[j].cardId == cardId
  }

  /** `editCard`: `findByIdAndUpdate(id, body, {new: true})` then 200 with the
      updated document, or with `null` when no document has that id. A body
      `cardId` another document holds is refused by the unique index; the
      handler has no `catch`, so that rejection escapes it. */
  function EditCard(store: Store, id: ObjectId, body: map<string, string>): (r: (Store, Outcome))
    ensures !HasId(store, id) ==> r == (store, Respond(Response(200, Null)))
    ensures HasId(store, id) ==>
      var i := IndexOf(store, id).value;
      var u := Patch(store[i], body);
      if "cardId" in body && TakenByOther(store, i, body["cardId"])
      then r == (store, Rejected(DuplicateKey("cardId", body["cardId"])))
      else
        && |r.0| == |store| && r.0[i] == u
        && (forall j :: 0 <= j < |store| && j != i ==> r.0[j] == store[j])
        && r.1 == Respond(Response(200, ToJson(u)))
    ensures Unique(store) ==> Unique(r.0)
  {
    match IndexOf(store, id)
    case None => (store, Respond(Response(200, Null)))
    case Some(i) =>
      var u := Patch(store[i], body);
      if "cardId" in body && TakenByOther(store, i, body["cardId"]) then
        (store, Rejected(DuplicateKey("cardId", body["cardId"])))
      else
        assert Unique(store) ==> Unique(store[i := u]) by {
          if Unique(store) {
            ReplaceUnique(store, i, u);
          }
        }
        (store[i := u], Respond(Response(200, ToJson(u))))
  }

  lemma ReplaceUnique(store: Store, i: nat, u: Card)
    requires i < |store| && u.id == store[i].id
    requires Unique(store)
    requires u.cardId == store[i].cardId || !TakenByOther(store, i, u.cardId)
    ensures Unique(store[i := u])
  {
    var s := store[i := u];
    {
      forall a, b | 0 <= a < b < |s|
        ensures DistinctIds(s[a], s[b]) && DistinctCardIds(s[a], s[b])
      {
        if a == i {
          assert DistinctIds(store[a], store[b]);
          assert store[b].cardId != u.cardId;
        } else if b == i {
          assert DistinctIds(store[a], store[b]);
          assert store[a].cardId != u.cardId;
        }
      }
    }
  }

  /** `findByIdAndUpdate` runs no validators: an edit can store a name that
      `save` would refuse, and still answers 200. */
  lemma EditSkipsValidation(store: Store, id: ObjectId, name: string)
    requires HasId(store, id) && |name| > 20
    ensures var r := EditCard(store, id, map["name" := name]);
      !AllValid(r.0) && r.1.Respond? && r.1.res.status == 200
  {
    var i := IndexOf(store, id).value;
    var r := EditCard(store, id, map["name" := name]);
    assert r.0[i].name == name;
    assert !Valid(r.0[i].AsDraft());
  }

  predicate KeepOther(id: ObjectId, c: Card) {
    c.id != id
  }

  /** `deletCard`: removes the document with that id, if any, and answers 204
      with no body either way. */
  function DeleteCard(store: Store, id: ObjectId): (r: (Store, Outcome))
    ensures r.1 == Respond(Response(204, Undefined))
    ensures !HasId(r.0, id)
    ensures forall i :: 0 <= i < |store| && store[i].id != id ==> store[i] in r.0
    ensures forall c :: c in r.0 ==> c in store
    ensures !HasId(store, id) ==> r.0 == store
    ensures Unique(store) && HasId(store, id) ==>
      var i := IndexOf(store, id).value;
      r.0 == store[..i] + store[i + 1..]
    ensures Unique(store) ==> Unique(r.0)
    ensures AllValid(store) ==> AllValid(r.0)
  {
    var kept := Filter((c: Card) => KeepOther(id, c), store);
    assert !HasId(store, id) ==> kept == store by {
      if !HasId(store, id) {
        FilterKeepsAll((c: Card) => KeepOther(id, c), store);
      }
    }
    assert Unique(store) && HasId(store, id) ==> kept == store[..IndexOf(store, id).value] + store[IndexOf(store, id).value + 1..] by {
      if Unique(store) && HasId(store, id) {
        DeleteFound(store, id);
      }
    }
    assert Unique(store) ==> Unique(kept) by {
      if Unique(store) {
        FilterPairwise(DistinctIds, (c: Card) => KeepOther(id, c), store);
        FilterPairwise(DistinctCardIds, (c: Card) => KeepOther(id, c), store);
      }
    }
    assert forall i :: 0 <= i < |kept| ==> kept[i] in store;
    (kept, Respond(Response(204, Undefined)))
  }

  /** In a store with unique ids, removing the document found at `IndexOf`
      leaves the documents before it and after it, in order. */
  lemma DeleteFound(store: Store, id: ObjectId)
    requires Unique(store) && HasId(store, id)
    ensures var i := IndexOf(store, id).value;
      Filter((c: Card) => KeepOther(id, c), store) == store[..i] + store[i + 1..]
  {
    var i := IndexOf(store, id).value;
    forall j | 0 <= j < |store| && j != i
      ensures KeepOther(id, store[j])
    {
      if j > i {
        assert DistinctIds(store[i], store[j]);
      }
    }
    FilterRemoveOne((c: Card) => KeepOther(id, c), store, i);
  }

  /** Deleting from `a + b` deletes from each part and keeps the parts in
      place: the remaining documents stay in store order. */
  lemma DeleteKeepsOrder(a: Store, b: Store, id: ObjectId)
    ensures DeleteCard(a + b, id).0 == DeleteCard(a, id).0 + DeleteCard(b, id).0
  {
    FilterConcat((c: Card) => KeepOther(id, c), a, b);
  }

  /** A `cardId` already in the store is refused through `next` and answered
      409 naming `cardId` and the value. */
  lemma CreateDuplicateAnswered(store: Store, body: map<string, string>, newId: ObjectId, development: bool)
    requires Valid(DraftOf(body)) && !HasId(store, newId) && HasCardId(store, body["cardId"])
    ensures var r := CreateCard(store, body, newId);
      && r.0 == store && r.1.Next?
      && Classify(r.1.err, development).status == 409
      && Prop(Classify(r.1.err, development).body, "details")
           == Str("Ya existe un registro con cardId: " + body["cardId"])
  {
  }

  /** A document breaking the schema is refused through `next` and answered
      400 with one entry per failing path. */
  lemma CreateInvalidAnswered(store: Store, body: map<string, string>, newId: ObjectId, development: bool)
    requires !Valid(DraftOf(body))
    ensures var r := CreateCard(store, body, newId);
      && r.0 == store && r.1.Next?
      && var res := Classify(r.1.err, development);
      && res.status == 400
      && var list := Prop(res.body, "validationErrors");
      && list.Arr? && 0 < |list.items| == |Violations(DraftOf(body))|
  {
  }

  /** Neither the digits, the length above zero nor the uniqueness of
      `cardNumber` is checked: a short number shared with a stored card is
      accepted as long as the `cardId` is new. */
  lemma CreateAllowsSharedShortNumber(store: Store, body: map<string, string>, newId: ObjectId, i: nat)
    requires Unique(store) && i < |store|
    requires body == map["cardId" := "new-" + store[i].cardId, "cardNumber" := store[i].cardNumber,
                         "name" := "John Doe", "expiry" := "12/25", "cvc" := "123"]
    requires store[i].cardNumber != "" && |store[i].cardNumber| <= 16
    requires !HasId(store, newId) && !HasCardId(store, "new-" + store[i].cardId)
    ensures var r := CreateCard(store, body, newId);
      && r.1.Respond? && r.1.res.status == 201
      && |r.0| == |store| + 1 && r.0[|store|].cardNumber == r.0[i].cardNumber
  {
    assert Valid(DraftOf(body));
  }

  /** The creation the repository's API test performs: a nine-digit
      `cardNumber` on an empty collection answers 201 echoing the name. */
  lemma CreateNineDigitNumber(newId: ObjectId)
    ensures var r := CreateCard([], map["cardId" := "1", "cardNumber" := "543982626",
                                        "name" := "John Doe", "expiry" := "12/25", "cvc" := "123"], newId);
      && r.1.Respond? && r.1.res.status == 201
      && Prop(r.1.res.body, "name") == Str("John Doe")
      && |r.0| == 1
  {
    var body := map["cardId" := "1", "cardNumber" := "543982626",
                    "name" := "John Doe", "expiry" := "12/25", "cvc" := "123"];
    assert Valid(DraftOf(body));
  }
}

=== FILE: card_form.dfy ===
/** The card form hook `useCard` (front-end/src/hooks/userCard.js): a form
    record, an error map and an error flag, each handler one atomic step. */
module CardForm {
  import opened Wrappers
  import opened Seqs
  import opened Text
  import opened Formatted

  /** `cardData`: the five fields of the initial state plus whatever other
      keys `handleInputChange` was given (kept in `extra`). */
  datatype CardData = CardData(
    number: string, name: string, expiry: string, cvc: string, focus: string,
    extra: map<string, string>)
  {
    /** `cardData[field]`, `None` for a key the object does not have. */
    function Get(field: string): Option<string> {
      if field == "number" then Some(number)
      else if field == "name" then Some(name)
      else if field == "expiry" then Some(expiry)
      else if field == "cvc" then Some(cvc)
      else if field == "focus" then Some(focus)
      else if field in extra then Some(extra[field])
      else None
    }

    /** `{ ...cardData, [field]: value }` */
    function With(field: string, value: string): (d: CardData)
      ensures d.Get(field) == Some(value)
      ensures forall f :: f != field ==> d.Get(f) == Get(f)
    {
      if field == "number" then this.(number := value)
      else if field == "name" then this.(name := value)
      else if field == "expiry" then this.(expiry := value)
      else if field == "cvc" then this.(cvc := value)
      else if field == "focus" then this.(focus := value)
      else this.(extra := extra[field := value])
    }
  }

  /** The whole hook state: `cardData`, `validationErrors` and `errorRef.current`. */
  datatype Form = Form(card: CardData, errors: map<string, string>, errorRef: bool)

  const Blank := CardData("", "", "", "", "", map[])
  const Initial := Form(Blank, map[], false)

  const MonthError := "El mes debe estar entre 01 y 12"

  function YearError(maxYear: nat): string {
    "El año debe estar entre 22 y " + NatToString(maxYear)
  }

  // ---------------------------------------------------------------- number

  /** `input.replace(/(\d{4})(?=\d)/g, '$1 ')`: scanning left to right, four
      digits followed by a digit are emitted with a space after them and the
      scan resumes after the four; otherwise one character is copied. */
  function SpaceGroups(s: string): string
    decreases |s|
  {
    if |s| >= 5 && AllDigits(s[..5]) then s[..4] + " " + SpaceGroups(s[4..])
    else if s == [] then []
    else [s[0]] + SpaceGroups(s[1..])
  }

  lemma {:induction false} SpaceGroupsShort(d: string)
    requires |d| < 5
    ensures SpaceGroups(d) == d
    decreases |d|
  {
    if d != [] {
      SpaceGroupsShort(d[1..]);
    }
  }

  /** On a digit string the regex groups the digits in fours: a space at every
      fifth position, the digits in order elsewhere, and no trailing space. */
  lemma {:induction false} SpaceGroupsLayout(d: string)
    requires AllDigits(d)
    ensures var r := SpaceGroups(d);
      && |r| == (if d == [] then 0 else |d| + (|d| - 1) / 4)
      && (forall i :: 0 <= i < |r| ==> (r[i] == ' ' <==> i % 5 == 4))
      && (forall i :: 0 <= i < |r| && i % 5 != 4 ==> r[i] == d[i - i / 5])
      && (r != [] ==> r[|r| - 1] != ' ')
    decreases |d|
  {
    var r := SpaceGroups(d);
    if |d| < 5 {
      SpaceGroupsShort(d);
    } else {
      var rest := SpaceGroups(d[4..]);
      SpaceGroupsLayout(d[4..]);
      assert r == d[..4] + " " + rest;
      forall i | 5 <= i < |r|
        ensures (r[i] == ' ' <==> i % 5 == 4)
        ensures i % 5 != 4 ==> r[i] == d[i - i / 5]
      {
        var j := i - 5;
        assert r[i] == rest[j];
        assert j % 5 == i % 5 && j / 5 == i / 5 - 1;
      }
      assert |r| - 1 >= 5;
      var j := |r| - 1 - 5;
      assert j % 5 == (|r| - 1) % 5;
    }
  }

  /** Removing the spaces from the grouped number gives back the digits. */
  lemma {:induction false} SpaceGroupsStrip(d: string)
    requires AllDigits(d)
    ensures StripWhitespace(SpaceGroups(d)) == d
    decreases |d|
  {
    if |d| < 5 {
      SpaceGroupsShort(d);
      StripDigits(d);
    } else {
      SpaceGroupsStrip(d[4..]);
      StripDigits(d[..4]);
      FilterConcat(NotWhitespace, d[..4] + " ", SpaceGroups(d[4..]));
      FilterConcat(NotWhitespace, d[..4], " ");
      assert d[..4] + d[4..] == d;
    }
  }

  /** `handleNumberChange`: the digits of the input grouped in fours, unless
      there are more than sixteen, in which case nothing changes. */
  function NumberChange(f: Form, value: string): (r: Form)
    ensures |Digits(value)| > 16 ==> r == f
    ensures |Digits(value)| <= 16 ==>
      && StripWhitespace(r.card.number) == Digits(value)
      && |r.card.number| <= 19
      && (LengthCheck(r.card.number) <==> |Digits(value)| != 16)
      && |r.card.number| == (if Digits(value) == [] then 0 else |Digits(value)| + (|Digits(value)| - 1) / 4)
      && (forall i :: 0 <= i < |r.card.number| ==> (r.card.number[i] == ' ' <==> i % 5 == 4))
      && (forall i :: 0 <= i < |r.card.number| && i % 5 != 4 ==>
            r.card.number[i] == Digits(value)[i - i / 5])
      && (r.card.number != [] ==> r.card.number[|r.card.number| - 1] != ' ')
      && r.errors == f.errors && r.errorRef == f.errorRef
      && forall k :: k != "number" ==> r.card.Get(k) == f.card.Get(k)
  {
    var input := Digits(value);
    if |input| > 16 then f
    else
      var formatted := SpaceGroups(input);
      SpaceGroupsStrip(input);
      SpaceGroupsLayout(input);
      f.(card := f.card.With("number", formatted))
  }

  // ---------------------------------------------------------------- expiry

  /** The error text `handleExpiryChange` records for a formatted expiry: a
      complete `MM/YY` is checked for the month first, then for a year in
      [22, currentYear % 100 + 5]; anything shorter clears the error. */
  function ExpiryError(formatted: string, currentYear: nat): (e: string)
    requires |formatted| == 5 ==> AllDigits(formatted[..2]) && AllDigits(formatted[3..])
  {
    if |formatted| == 5 then
      var month := ParseDigits(formatted[..2]);
      var year := ParseDigits(formatted[3..]);
      var maxYear := currentYear % 100 + 5;
      if month < 1 || month > 12 then MonthError
      else if year < 22 || year > maxYear then YearError(maxYear)
      else ""
    else ""
  }

  /** `handleExpiryChange`: values longer than five characters are ignored;
      otherwise the digits are formatted as by `formatExpiryt` and stored,
      valid or not, and the expiry error is set accordingly. */
  function ExpiryChange(f: Form, value: string, currentYear: nat): (r: Form)
    ensures |value| > 5 ==> r == f
    ensures |value| <= 5 ==>
      var e := r.card.expiry;
      var d := Digits(value);
      && r.card.Get("expiry") == Some(FormatExpiry(d))
      && (|d| <= 2 ==> e == d)
      && (|d| > 2 ==> e[2] == '/' && e[..2] + e[3..] == d[..Min(4, |d|)])
      && "expiry" in r.errors
      && (|e| != 5 ==> r.errors["expiry"] == "")
      && (|e| == 5 ==>
            var month := 10 * DigitValue(e[0]) + DigitValue(e[1]);
            var year := 10 * DigitValue(e[3]) + DigitValue(e[4]);
            && (r.errors["expiry"] == MonthError <==> month < 1 || month > 12)
            && (1 <= month <= 12 ==>
                  var maxYear := currentYear % 100 + 5;
                  (r.errors["expiry"] == YearError(maxYear) <==> year < 22 || year > maxYear))
            && (r.errors["expiry"] == "" <==>
                  1 <= month <= 12 && 22 <= year <= currentYear % 100 + 5))
      && r.errors == f.errors["expiry" := r.errors["expiry"]]
      && forall k :: k != "expiry" ==> r.card.Get(k) == f.card.Get(k)
    ensures r.errorRef == f.errorRef
  {
    if |value| > 5 then f
    else
      var input := Digits(value);
      var formatted := FormatExpiry(input);
      assert |formatted| == 5 ==> formatted[..2] == input[..2] && formatted[3..] == input[2..4];
      ExpiryFacts(formatted, currentYear);
      f.(card := f.card.With("expiry", formatted),
         errors := f.errors["expiry" := ExpiryError(formatted, currentYear)])
  }

  /** The error texts are distinct, and a complete expiry's month and year are
      its two digit pairs. */
  lemma ExpiryFacts(formatted: string, currentYear: nat)
    requires |formatted| == 5 ==> AllDigits(formatted[..2]) && AllDigits(formatted[3..])
    ensures |formatted| == 5 ==>
      && ParseDigits(formatted[..2]) == 10 * DigitValue(formatted[0]) + DigitValue(formatted[1])
      && ParseDigits(formatted[3..]) == 10 * DigitValue(formatted[3]) + DigitValue(formatted[4])
    ensures MonthError != "" && YearError(currentYear % 100 + 5) != ""
    ensures MonthError != YearError(currentYear % 100 + 5)
  {
    if |formatted| == 5 {
      ParseTwoDigits(formatted[..2]);
      ParseTwoDigits(formatted[3..]);
    }
    assert MonthError[4] != YearError(currentYear % 100 + 5)[4];
  }

  // ---------------------------------------------------------------- cvc, name

  /** `handleCvcChange`: up to four characters stored verbatim, digits or not. */
  function CvcChange(f: Form, value: string): (r: Form)
    ensures |value| > 4 ==> r == f
    ensures |value| <= 4 ==> r.card.Get("cvc") == Some(value) && r.errors == f.errors
    ensures forall k :: k != "cvc" ==> r.card.Get(k) == f.card.Get(k)
    ensures r.errorRef == f.errorRef
  {
    if |value| > 4 then f else f.(card := f.card.With("cvc", value))
  }

  /** The class `[A-Za-zÀ-ÖØ-öø-ÿ\s]` kept in a cardholder name. */
  predicate IsNameChar(c: char) {
    || ('A' <= c <= 'Z') || ('a' <= c <= 'z')
    || ('\U{00C0}' <= c <= '\U{00D6}')
    || ('\U{00D8}' <= c <= '\U{00F6}')
    || ('\U{00F8}' <= c <= '\U{00FF}')
    || IsWhitespace(c)
  }

  /** `handleNameChange`: values longer than twenty characters are ignored;
      otherwise the characters outside the name class are dropped. */
  function NameChange(f: Form, value: string): (r: Form)
    ensures |value| > 20 ==> r == f
    ensures |value| <= 20 ==>
      && |r.card.name| <= 20
      && (forall i :: 0 <= i < |r.card.name| ==> IsNameChar(r.card.name[i]))
      && (forall i :: 0 <= i < |value| && IsNameChar(value[i]) ==> value[i] in r.card.name)
      && (forall i :: 0 <= i < |r.card.name| ==> r.card.name[i] in value)
      && (forall c :: multiset(r.card.name)[c] == if IsNameChar(c) then multiset(value)[c] else 0)
      && r.errors == f.errors
    ensures forall k :: k != "name" ==> r.card.Get(k) == f.card.Get(k)
    ensures r.errorRef == f.errorRef
  {
    if |value| > 20 then f
    else
      var name := Filter(IsNameChar, value);
      assert forall c :: multiset(name)[c] == if IsNameChar(c) then multiset(value)[c] else 0 by {
        forall c {
          FilterMultiplicity(IsNameChar, value, c);
        }
      }
      f.(card := f.card.With("name", name))
  }

  /** The kept characters stay in their order: the name stored for `a + b` is
      the name stored for `a` followed by the name stored for `b`. */
  lemma NameChangeKeepsOrder(f: Form, a: string, b: string)
    requires |a + b| <= 20
    ensures NameChange(f, a + b).card.name == NameChange(f, a).card.name + NameChange(f, b).card.name
  {
    FilterConcat(IsNameChar, a, b);
  }

  // ---------------------------------------------------------------- dispatch

  /** `handleInputChange`: routes by the input's name; any other name is stored
      verbatim under that key. */
  function InputChange(f: Form, name: string, value: string, currentYear: nat): (r: Form)
    ensures forall k :: k != name ==> r.card.Get(k) == f.card.Get(k)
    ensures name != "expiry" ==> r.errors == f.errors
    ensures r.errorRef == f.errorRef
    ensures name !in {"number", "expiry", "cvc", "name"} ==> r.card.Get(name) == Some(value)
  {
    if name == "number" then NumberChange(f, value)
    else if name == "expiry" then ExpiryChange(f, value, currentYear)
    else if name == "cvc" then CvcChange(f, value)
    else if name == "name" then NameChange(f, value)
    else f.(card := f.card.With(name, value))
  }

  /** `handleInputFocus`: records which field has focus. */
  function InputFocus(f: Form, target: string): (r: Form)
    ensures r.card.focus == target
    ensures forall k :: k != "focus" ==> r.card.Get(k) == f.card.Get(k)
    ensures r.errors == f.errors && r.errorRef == f.errorRef
  {
    f.(card := f.card.With("focus", target))
  }

  /** `handleReset`: every field empty, no errors, the error flag down. */
  function Reset(f: Form): (r: Form)
    ensures forall k :: k in {"number", "name", "expiry", "cvc", "focus"} ==> r.card.Get(k) == Some("")
    ensures forall k :: k !in {"number", "name", "expiry", "cvc", "focus"} ==> r.card.Get(k) == None
    ensures r.errors == map[] && !r.errorRef
  {
    Initial
  }
}

=== FILE: card_model.dfy ===
/** The card schema and its JSON transform (back-end/src/models/card.model.js). */
module CardModel {
  import opened Wrappers
  import opened Text
  import opened Js
  import opened Middleware

  /** A store-assigned `_id`, represented by its hexadecimal text. */
  datatype ObjectId = ObjectId(hex: string)

  /** `new cardModel({cardId, cardNumber, name, expiry, cvc})` before `save`:
      a field the request body lacked is `None`. */
  datatype Draft = Draft(
    cardId: Option<string>, cardNumber: Option<string>, name: Option<string>,
    expiry: Option<string>, cvc: Option<string>)

  /** A stored document; `version` is Mongoose's `__v`. */
  datatype Card = Card(
    id: ObjectId, version: nat,
    cardId: string, cardNumber: string, name: string, expiry: string, cvc: string)
  {
    function AsDraft(): Draft {
      Draft(Some(cardId), Some(cardNumber), Some(name), Some(expiry), Some(cvc))
    }
  }

  /** A `required` string path: present and not empty (Mongoose rejects ""). */
  predicate Present(v: Option<string>) {
    v.Some? && v.value != ""
  }

  /** The schema's constraints: all five paths required; `maxlength` 16, 20, 5
      and 4 on cardNumber, name, expiry and cvc; cardId unbounded. Nothing is
      said about digits, formats or a minimum length. */
  predicate Valid(d: Draft) {
    && Present(d.cardId) && Present(d.cardNumber) && Present(d.name)
    && Present(d.expiry) && Present(d.cvc)
    && |d.cardNumber.value| <= 16 && |d.name.value| <= 20
    && |d.expiry.value| <= 5 && |d.cvc.value| <= 4
  }

  function RequiredMessage(path: string): string {
    "Path `" + path + "` is required."
  }

  function MaxLengthMessage(path: string, value: string, max: nat): string {
    "Path `" + path + "` (`" + value + "`) is longer than the maximum allowed length ("
      + NatToString(max) + ")."
  }

  /** The validator failure of one path, if any: `required` is checked before
      `maxlength`, and an unbounded path (`max` is `None`) only needs presence. */
  function PathCheck(path: string, v: Option<string>, max: Option<nat>): (errs: seq<FieldError>)
    ensures |errs| <= 1
    ensures errs == [] <==> Present(v) && (max.Some? ==> |v.value| <= max.value)
    ensures forall i :: 0 <= i < |errs| ==> errs[i].path == path
  {
    if !Present(v) then
      [FieldError(path, RequiredMessage(path), if v.None? then Undefined else Str(v.value))]
    else if max.Some? && |v.value| > max.value then
      [FieldError(path, MaxLengthMessage(path, v.value, max.value), Str(v.value))]
    else []
  }

  /** The paths the entries of `errs` are about, in order. */
  function Paths(errs: seq<FieldError>): (ps: seq<string>)
    ensures |ps| == |errs|
    ensures forall i :: 0 <= i < |errs| ==> ps[i] == errs[i].path
  {
    seq(|errs|, i requires 0 <= i < |errs| => errs[i].path)
  }

  lemma PathsConcat(a: seq<FieldError>, b: seq<FieldError>)
    ensures Paths(a + b) == Paths(a) + Paths(b)
  {
    assert forall i :: 0 <= i < |a + b| ==> Paths(a + b)[i] == (Paths(a) + Paths(b))[i];
  }

  /** `[path]` when the check on `path` fails, nothing otherwise. */
  function Flag(fails: bool, path: string): seq<string> {
    if fails then [path] else []
  }

  /** A single path's check reports exactly its path when the value fails. */
  lemma PathCheckPaths(path: string, v: Option<string>, max: Option<nat>)
    ensures Paths(PathCheck(path, v, max)) == Flag(!Present(v) || (max.Some? && |v.value| > max.value), path)
  {
  }

  /** The entries of the `ValidationError` that `save` rejects with, one per
      failing path in schema order. */
  function Violations(d: Draft): (errs: seq<FieldError>)
    ensures errs == [] <==> Valid(d)
    ensures |errs| <= 5
    ensures Paths(errs)
         == Flag(!Present(d.cardId), "cardId")
          + Flag(!Present(d.cardNumber) || |d.cardNumber.value| > 16, "cardNumber")
          + Flag(!Present(d.name) || |d.name.value| > 20, "name")
          + Flag(!Present(d.expiry) || |d.expiry.value| > 5, "expiry")
          + Flag(!Present(d.cvc) || |d.cvc.value| > 4, "cvc")
    ensures forall i :: 0 <= i < |errs| ==>
      errs[i].path in {"cardId", "cardNumber", "name", "expiry", "cvc"}
  {
    var e1 := PathCheck("cardId", d.cardId, None);
    var e2 := PathCheck("cardNumber", d.cardNumber, Some(16));
    var e3 := PathCheck("name", d.name, Some(20));
    var e4 := PathCheck("expiry", d.expiry, Some(5));
    var e5 := PathCheck("cvc", d.cvc, Some(4));
    var errs := e1 + e2 + e3 + e4 + e5;
    PathCheckPaths("cardId", d.cardId, None);
    PathCheckPaths("cardNumber", d.cardNumber, Some(16));
    PathCheckPaths("name", d.name, Some(20));
    PathCheckPaths("expiry", d.expiry, Some(5));
    PathCheckPaths("cvc", d.cvc, Some(4));
    PathsConcat(e1, e2);
    PathsConcat(e1 + e2, e3);
    PathsConcat(e1 + e2 + e3, e4);
    PathsConcat(e1 + e2 + e3 + e4, e5);
    assert forall i :: 0 <= i < |errs| ==> errs[i].path in {"cardId", "cardNumber", "name", "expiry", "cvc"} by {
      forall i | 0 <= i < |errs|
        ensures errs[i].path in {"cardId", "cardNumber", "name", "expiry", "cvc"}
      {
        assert Paths(errs)[i] in Paths(errs);
      }
    }
    errs
  }

  /** The error Mongoose raises for an invalid document. */
  function ValidationFailure(errs: seq<FieldError>): (e: AppError)
    ensures e.name == Some("ValidationError") && e.errors == errs
  {
    AppError(Some("ValidationError"), None, None, None, errs, [], None)
  }

  /** The error MongoDB raises when a unique index already holds `value`. */
  function DuplicateKey(path: string, value: string): (e: AppError)
    ensures e.code == Some(11000) && e.keyValue == [(path, value)]
    ensures e.name !in {Some("CastError"), Some("ValidationError")}
  {
    AppError(Some("MongoServerError"), Some(11000), None, None, [], [(path, value)], None)
  }

  /** `document.toObject()`: every stored path, `_id` and `__v` included. */
  function ToObject(c: Card): (o: JsValue)
    ensures o.Obj?
    ensures Prop(o, "_id") == Str(c.id.hex) && Prop(o, "__v") == Num(c.version)
    ensures Prop(o, "cardId") == Str(c.cardId) && Prop(o, "cardNumber") == Str(c.cardNumber)
    ensures Prop(o, "name") == Str(c.name) && Prop(o, "expiry") == Str(c.expiry)
    ensures Prop(o, "cvc") == Str(c.cvc)
    ensures forall k :: k !in {"_id", "cardId", "cardNumber", "name", "expiry", "cvc", "__v"} ==>
      Prop(o, k) == Undefined
  {
    var fields := [
      Field("_id", Str(c.id.hex)), Field("cardId", Str(c.cardId)),
      Field("cardNumber", Str(c.cardNumber)), Field("name", Str(c.name)),
      Field("expiry", Str(c.expiry)), Field("cvc", Str(c.cvc)), Field("__v", Num(c.version))];
    LookupAt(fields, "cardId", 1, 0);
    LookupAt(fields, "cardNumber", 2, 0);
    LookupAt(fields, "name", 3, 0);
    LookupAt(fields, "expiry", 4, 0);
    LookupAt(fields, "cvc", 5, 0);
    LookupAt(fields, "__v", 6, 0);
    forall k | k !in {"_id", "cardId", "cardNumber", "name", "expiry", "cvc", "__v"}
      ensures LookupFrom(fields, k, 0) == Undefined
    {
      LookupAbsent(fields, k, 0);
    }
    Obj(fields)
  }

  /** `toJSON` with the schema's transform: `id` is the text of `_id`, and
      `_id` and `__v` are gone; every other property is the document's own. */
  function ToJson(c: Card): (j: JsValue)
    ensures j.Obj?
    ensures Prop(j, "id") == Str(c.id.hex)
    ensures Prop(j, "_id") == Undefined && Prop(j, "__v") == Undefined
    ensures forall k :: k !in {"id", "_id", "__v"} ==> Prop(j, k) == Prop(ToObject(c), k)
  {
    var o := ToObject(c);
    DeleteProp(DeleteProp(SetProp(o, "id", Str(Prop(o, "_id").s)), "_id"), "__v")
  }

  /** The serialised document carries exactly the fields it was saved with. */
  lemma ToJsonFields(c: Card)
    ensures var j := ToJson(c);
      && Prop(j, "cardId") == Str(c.cardId) && Prop(j, "cardNumber") == Str(c.cardNumber)
      && Prop(j, "name") == Str(c.name) && Prop(j, "expiry") == Str(c.expiry)
      && Prop(j, "cvc") == Str(c.cvc)
  {
  }
}

=== FILE: formatted.dfy ===
/** Display helpers of the client (front-end/src/utils/formatted.js). */
module Formatted {
  import opened Wrappers
  import opened Seqs
  import opened Text

  function Min(a: int, b: int): int {
    if a < b then a else b
  }

  /** `formatExpiryt`: a slash after the first two characters and at most two
      characters after it. The month/year check its doc comment promises is
      commented out, so every input is accepted, whatever its characters. */
  function FormatExpiry(input: string): (r: string)
    ensures |input| <= 2 ==> r == input
    ensures |input| > 2 ==> 3 <= |r| <= 5 && r[2] == '/'
    ensures |input| > 2 ==> r[..2] + r[3..] == input[..Min(4, |input|)]
  {
    if |input| > 2 then input[..2] + "/" + input[2..Min(4, |input|)] else input
  }

  /** Characters past the fourth never reach the formatted expiry. */
  lemma FormatExpiryDropsTail(input: string)
    requires |input| > 4
    ensures FormatExpiry(input) == FormatExpiry(input[..4])
  {
  }

  /** `masknumber`: the first two and the last four characters of the number
      without whitespace, stars in between. `'*'.repeat` throws a RangeError
      for a negative count, which is `None` here: fewer than six characters. */
  function MaskNumber(num: string): (r: Option<string>)
    ensures var s := StripWhitespace(num);
      && (r.None? <==> |s| < 6)
      && (r.Some? ==>
            && |r.value| == |s|
            && r.value[..2] == s[..2]
            && r.value[|s| - 4..] == s[|s| - 4..]
            && forall i :: 2 <= i < |s| - 4 ==> r.value[i] == '*')
  {
    var s := StripWhitespace(num);
    var start := s[..Min(2, |s|)];
    var end := if |s| >= 4 then s[|s| - 4..] else s;
    if |s| - 6 < 0 then None
    else Some(start + Repeat('*', |s| - 6) + end)
  }

  /** Whitespace inserted anywhere in the number leaves the mask unchanged. */
  lemma MaskNumberIgnoresWhitespace(a: string, w: string, b: string)
    requires forall i :: 0 <= i < |w| ==> IsWhitespace(w[i])
    ensures MaskNumber(a + w + b) == MaskNumber(a + b)
  {
    StripInserted(a, w, b);
  }

  /** `lengthCheck(cardData)` on `cardData.number`: true means the number is
      NOT exactly sixteen digits once whitespace is removed. */
  function LengthCheck(number: string): bool {
    var s := StripWhitespace(number);
    !(|s| == 16 && AllDigits(s))
  }

  /** `lengthCheck` only sees the number without its whitespace. */
  lemma LengthCheckIgnoresWhitespace(a: string, w: string, b: string)
    requires forall i :: 0 <= i < |w| ==> IsWhitespace(w[i])
    ensures LengthCheck(a + w + b) == LengthCheck(a + b)
  {
    StripInserted(a, w, b);
  }

  /** `lengthCheck` is false exactly for the numbers whose non-whitespace
      characters are sixteen ASCII digits. */
  lemma LengthCheckAccepts(number: string)
    ensures !LengthCheck(number) <==>
      |Filter(NotWhitespace, number)| == 16 && forall i :: 0 <= i < |number| && !IsWhitespace(number[i]) ==> IsDigit(number[i])
  {
    var s := StripWhitespace(number);
    if forall i :: 0 <= i < |number| && !IsWhitespace(number[i]) ==> IsDigit(number[i]) {
      forall i | 0 <= i < |s|
        ensures IsDigit(s[i])
      {
        assert s[i] in number;
      }
    }
    if AllDigits(s) {
      forall i | 0 <= i < |number| && !IsWhitespace(number[i])
        ensures IsDigit(number[i])
      {
        assert number[i] in s;
      }
    }
  }
}

=== FILE: http.dfy ===
/** HTTP exchanges, seen from both ends. */
module Http {
  import opened Js

  /** What an Express handler writes with `res.status(status).json(body)`;
      `Undefined` stands for "no body". */
  datatype Response = Response(status: int, body: JsValue)

  /** What `response.json()` yields on the client: a parsed value or the
      message of the error it rejects with. */
  datatype Body = Parsed(json: JsValue) | Unparsable(message: string)

  /** What `fetch` delivers to the client: a response, or a rejection of the
      call itself (network failure) carrying its error message. */
  datatype Reply =
    | Reply(status: nat, statusText: string, body: Body)
    | NetworkFailure(message: string)
  {
    /** `response.ok`: a status in the 200 range. */
    predicate Ok() {
      Reply? && 200 <= status <= 299
    }
  }
}

=== FILE: js.dfy ===
/** JavaScript values as they cross the HTTP boundary: JSON plus `undefined`.
    Numbers are integers; objects are ordered key/value lists. */
module Js {
  import opened Wrappers

  datatype JsValue =
    | Undefined
    | Null
    | Bool(b: bool)
    | Num(n: int)
    | Str(s: string)
    | Arr(items: seq<JsValue>)
    | Obj(fields: seq<Field>)

  datatype Field = Field(key: string, value: JsValue)

  /** JavaScript truthiness of a value. */
  predicate Truthy(v: JsValue) {
    match v
    case Undefined => false
    case Null => false
    case Bool(b) => b
    case Num(n) => n != 0
    case Str(s) => s != ""
    case _ => true
  }

  /** `v == null`: the values `??` replaces. */
  predicate Nullish(v: JsValue) {
    v.Undefined? || v.Null?
  }

  /** `a || b` */
  function Or(a: JsValue, b: JsValue): (r: JsValue)
    ensures Truthy(a) ==> r == a
    ensures !Truthy(a) ==> r == b
  {
    if Truthy(a) then a else b
  }

  /** `a ?? b` */
  function Coalesce(a: JsValue, b: JsValue): (r: JsValue)
    ensures Nullish(a) ==> r == b
    ensures !Nullish(a) ==> r == a
  {
    if Nullish(a) then b else a
  }

  /** The value under `key` among `fields[i..]`, first occurrence wins. */
  function LookupFrom(fields: seq<Field>, key: string, i: nat): JsValue
    decreases |fields| - i
  {
    if i >= |fields| then Undefined
    else if fields[i].key == key then fields[i].value
    else LookupFrom(fields, key, i + 1)
  }

  /** The value of property `key` of a value that is not `null` or `undefined`.
      The keys read in this model (`data`, `_id`, ...) are not properties of
      booleans, numbers, strings or arrays, so those yield `undefined`; the
      throwing read on `null` and `undefined` is `Get`. */
  function Prop(v: JsValue, key: string): JsValue {
    match v
    case Obj(fields) => LookupFrom(fields, key, 0)
    case _ => Undefined
  }

  /** The message of the TypeError V8 throws for `v[key]` when `v` is `null`
      or `undefined`. */
  function ReadError(v: JsValue, key: string): string
    requires Nullish(v)
  {
    "Cannot read properties of " + (if v.Null? then "null" else "undefined") + " (reading '" + key + "')"
  }

  /** Property read `v[key]` as JavaScript evaluates it: a TypeError on
      `null` and `undefined`, the property's value otherwise. */
  function Get(v: JsValue, key: string): (r: Result<JsValue, string>)
    ensures r.Failure? <==> Nullish(v)
    ensures r.Success? ==> r.value == Prop(v, key)
    ensures r.Failure? ==> r.error == ReadError(v, key)
  {
    if Nullish(v) then Failure(ReadError(v, key)) else Success(Prop(v, key))
  }

  /** `delete o[key]` */
  function DeleteProp(o: JsValue, key: string): (r: JsValue)
    requires o.Obj?
    ensures r.Obj?
    ensures Prop(r, key) == Undefined
    ensures forall k :: k != key ==> Prop(r, k) == Prop(o, k)
  {
    var r := Obj(Without(o.fields, key));
    forall k | k != key
      ensures Prop(r, k) == Prop(o, k)
    {
      LookupWithout(o.fields, key, k);
    }
    LookupWithout(o.fields, key, key);
    r
  }

  /** `o[key] = v` */
  function SetProp(o: JsValue, key: string, v: JsValue): (r: JsValue)
    requires o.Obj?
    ensures r.Obj?
    ensures Prop(r, key) == v
    ensures forall k :: k != key ==> Prop(r, k) == Prop(o, k)
  {
    var r := Obj(Without(o.fields, key) + [Field(key, v)]);
    forall k
      ensures Prop(r, k) == if k == key then v else Prop(o, k)
    {
      LookupWithout(o.fields, key, k);
      LookupAppend(Without(o.fields, key), Field(key, v), k);
    }
    r
  }

  function Without(fields: seq<Field>, key: string): (r: seq<Field>)
    ensures forall i :: 0 <= i < |r| ==> r[i].key != key
  {
    if fields == [] then []
    else (if fields[0].key == key then [] else [fields[0]]) + Without(fields[1..], key)
  }

  lemma {:induction false} LookupShift(fields: seq<Field>, key: string, i: nat)
    requires 0 < |fields| && 1 <= i
    ensures LookupFrom(fields, key, i) == LookupFrom(fields[1..], key, i - 1)
    decreases |fields| - i
  {
    if i < |fields| && fields[i].key != key {
      LookupShift(fields, key, i + 1);
    }
  }

  lemma {:induction false} LookupWithout(fields: seq<Field>, key: string, k: string)
    ensures LookupFrom(Without(fields, key), k, 0) == if k == key then Undefined else LookupFrom(fields, k, 0)
  {
    var w := Without(fields, key);
    if fields == [] {
    } else {
      var rest := Without(fields[1..], key);
      LookupWithout(fields[1..], key, k);
      if 0 < |fields| {
        LookupShift(fields, k, 1);
      }
      if fields[0].key == key {
        assert w == rest;
      } else {
        assert w == [fields[0]] + rest;
        if 0 < |w| {
          LookupShift(w, k, 1);
          assert w[1..] == rest;
        }
      }
      if k == key {
        LookupAbsent(w, k, 0);
      }
    }
  }

  /** The first field carrying `key` decides the lookup. */
  lemma {:induction false} LookupAt(fields: seq<Field>, key: string, i: nat, start: nat)
    requires start <= i < |fields| && fields[i].key == key
    requires forall j :: start <= j < i ==> fields[j].key != key
    ensures LookupFrom(fields, key, start) == fields[i].value
    decreases i - start
  {
    if start < i {
      LookupAt(fields, key, i, start + 1);
    }
  }

  /** Fields in front that do not carry `key` do not affect its lookup. */
  lemma {:induction false} LookupSkip(front: seq<Field>, rest: seq<Field>, key: string, i: nat)
    requires i <= |front|
    requires forall j :: 0 <= j < |front| ==> front[j].key != key
    ensures LookupFrom(front + rest, key, i) == LookupFrom(rest, key, 0)
    decreases |front| - i
  {
    if i < |front| {
      LookupSkip(front, rest, key, i + 1);
    } else {
      LookupTail(front, rest, key, 0);
    }
  }

  lemma {:induction false} LookupTail(front: seq<Field>, rest: seq<Field>, key: string, j: nat)
    ensures LookupFrom(front + rest, key, |front| + j) == LookupFrom(rest, key, j)
    decreases |rest| - j
  {
    if j < |rest| {
      LookupTail(front, rest, key, j + 1);
    }
  }

  lemma {:induction false} LookupAbsent(fields: seq<Field>, key: string, i: nat)
    requires forall j :: 0 <= j < |fields| ==> fields[j].key != key
    ensures LookupFrom(fields, key, i) == Undefined
    decreases |fields| - i
  {
    if i < |fields| {
      LookupAbsent(fields, key, i + 1);
    }
  }

  lemma {:induction false} LookupAppend(fields: seq<Field>, f: Field, k: string)
    requires forall j :: 0 <= j < |fields| ==> fields[j].key != f.key
    ensures LookupFrom(fields + [f], k, 0) == if k == f.key then f.value else LookupFrom(fields, k, 0)
  {
    if fields == [] {
      assert ([] + [f])[0] == f;
    } else {
      var all := fields + [f];
      assert all[1..] == fields[1..] + [f];
      LookupShift(all, k, 1);
      LookupShift(fields, k, 1);
      LookupAppend(fields[1..], f, k);
    }
  }
}

=== FILE: middleware.dfy ===
/** Centralised HTTP error mapping (back-end/src/utils/middleware.js). */
module Middleware {
  import opened Wrappers
  import opened Js
  import opened Http

  /** One entry of a Mongoose `ValidationError`'s `errors` object. */
  datatype FieldError = FieldError(path: string, message: string, value: JsValue)

  /** The properties of a thrown error the handler inspects. `errors` lists
      `Object.values(error.errors)` in order; `keyValue` lists the entries of
      `error.keyValue` in key order. */
  datatype AppError = AppError(
    name: Option<string>,
    code: Option<int>,
    status: Option<int>,
    message: Option<string>,
    errors: seq<FieldError>,
    keyValue: seq<(string, string)>,
    stack: Option<string>)

  const CastMessage := "Formato de ID inválido"
  const ValidationMessage := "Error de validación de datos"
  const DuplicateMessage := "Recurso duplicado"
  const UnavailableMessage := "Servicio de base de datos no disponible"
  const TimeoutMessage := "Timeout de base de datos"
  const AppFallbackMessage := "Error de aplicación"
  const InternalMessage := "Error interno del servidor"
  const NotFoundMessage := "Endpoint no encontrado"

  function OptStr(o: Option<string>): JsValue {
    match o
    case Some(s) => Str(s)
    case None => Undefined
  }

  function ErrorBody(error: string, rest: seq<Field>): (b: JsValue)
    ensures Prop(b, "success") == Bool(false)
    ensures Prop(b, "error") == Str(error)
    ensures forall k :: k != "success" && k != "error" ==> Prop(b, k) == Prop(Obj(rest), k)
  {
    var front := [Field("success", Bool(false)), Field("error", Str(error))];
    LookupAt(front + rest, "error", 1, 0);
    forall k | k != "success" && k != "error"
      ensures LookupFrom(front + rest, k, 0) == LookupFrom(rest, k, 0)
    {
      LookupSkip(front, rest, k, 0);
    }
    Obj(front + rest)
  }

  /** `${field}` and `${value}` of the first `keyValue` entry; both read
      `undefined` when there is none. */
  function DuplicateDetails(keyValue: seq<(string, string)>): string {
    var field := if keyValue == [] then "undefined" else keyValue[0].0;
    var value := if keyValue == [] then "undefined" else keyValue[0].1;
    "Ya existe un registro con " + field + ": " + value
  }

  predicate IsNetwork(err: AppError) {
    err.name == Some("MongoNetworkError") || err.name == Some("MongooseServerSelectionError")
  }

  /** `if (error.status)`: present and non-zero. */
  predicate HasStatus(err: AppError) {
    err.status.Some? && err.status.value != 0
  }

  /** `errorHandler`: the response for a forwarded error, by strict priority
      CastError, ValidationError, code 11000, network, timeout, own status,
      and 500 for everything else. */
  function Classify(err: AppError, development: bool): (r: Response)
    ensures Prop(r.body, "success") == Bool(false)
    ensures err.name == Some("CastError") ==>
      r.status == 400 && Prop(r.body, "error") == Str(CastMessage)
    ensures err.name == Some("ValidationError") ==>
      && r.status == 400
      && Prop(r.body, "error") == Str(ValidationMessage)
      && var list := Prop(r.body, "validationErrors");
         && list.Arr? && |list.items| == |err.errors|
         && forall i :: 0 <= i < |err.errors| ==>
              && Prop(list.items[i], "field") == Str(err.errors[i].path)
              && Prop(list.items[i], "message") == Str(err.errors[i].message)
              && Prop(list.items[i], "value") == err.errors[i].value
    ensures err.name !in {Some("CastError"), Some("ValidationError")} && err.code == Some(11000) ==>
      && r.status == 409
      && Prop(r.body, "error") == Str(DuplicateMessage)
      && Prop(r.body, "details") == Str(DuplicateDetails(err.keyValue))
    ensures err.code != Some(11000) && IsNetwork(err) ==>
      r.status == 503 && Prop(r.body, "error") == Str(UnavailableMessage)
    ensures err.code != Some(11000) && err.name == Some("MongooseTimeoutError") ==>
      r.status == 408 && Prop(r.body, "error") == Str(TimeoutMessage)
    ensures err.name !in {Some("CastError"), Some("ValidationError"), Some("MongoNetworkError"),
                          Some("MongooseServerSelectionError"), Some("MongooseTimeoutError")}
            && err.code != Some(11000) ==>
      && (HasStatus(err) ==>
            && r.status == err.status.value
            && Prop(r.body, "error") == Str(if err.message.Some? && err.message.value != ""
                                            then err.message.value else AppFallbackMessage))
      && (!HasStatus(err) ==>
            && r.status == 500
            && Prop(r.body, "error") == Str(InternalMessage)
            && Prop(r.body, "details") == (if development then OptStr(err.message) else Undefined)
            && Prop(r.body, "stack") == (if development then OptStr(err.stack) else Undefined))
  {
    if err.name == Some("CastError") then
      Response(400, ErrorBody(CastMessage,
        [Field("details", Str("El ID proporcionado no tiene un formato válido"))]))
    else if err.name == Some("ValidationError") then ValidationResponse(err.errors)
    else if err.code == Some(11000) then DuplicateResponse(err.keyValue)
    else if IsNetwork(err) then
      Response(503, ErrorBody(UnavailableMessage,
        [Field("details", Str("No se pudo conectar a la base de datos"))]))
    else if err.name == Some("MongooseTimeoutError") then
      Response(408, ErrorBody(TimeoutMessage,
        [Field("details", Str("La operación tardó demasiado tiempo"))]))
    else if HasStatus(err) then
      var message := if err.message.Some? && err.message.value != "" then err.message.value
                     else AppFallbackMessage;
      Response(err.status.value, ErrorBody(message, []))
    else InternalResponse(err, development)
  }

  /** 400 with one `{field, message, value}` per validation entry, in order. */
  function ValidationResponse(errors: seq<FieldError>): (r: Response)
    ensures r.status == 400
    ensures Prop(r.body, "success") == Bool(false)
    ensures Prop(r.body, "error") == Str(ValidationMessage)
    ensures var list := Prop(r.body, "validationErrors");
      && list.Arr? && |list.items| == |errors|
      && forall i :: 0 <= i < |errors| ==> list.items[i] == Detail(errors[i])
  {
    var list := seq(|errors|, i requires 0 <= i < |errors| => Detail(errors[i]));
    var b := ErrorBody(ValidationMessage, [Field("validationErrors", Arr(list))]);
    assert Prop(b, "validationErrors") == Arr(list);
    Response(400, b)
  }

  /** 409 naming the first duplicated key and its value. */
  function DuplicateResponse(keyValue: seq<(string, string)>): (r: Response)
    ensures r.status == 409
    ensures Prop(r.body, "success") == Bool(false)
    ensures Prop(r.body, "error") == Str(DuplicateMessage)
    ensures Prop(r.body, "details") == Str(DuplicateDetails(keyValue))
  {
    var b := ErrorBody(DuplicateMessage, [Field("details", Str(DuplicateDetails(keyValue)))]);
    assert Prop(b, "details") == Str(DuplicateDetails(keyValue));
    Response(409, b)
  }

  /** 500 with a generic message; diagnostics only in development. */
  function InternalResponse(err: AppError, development: bool): (r: Response)
    ensures r.status == 500
    ensures Prop(r.body, "success") == Bool(false)
    ensures Prop(r.body, "error") == Str(InternalMessage)
    ensures Prop(r.body, "details") == (if development then OptStr(err.message) else Undefined)
    ensures Prop(r.body, "stack") == (if development then OptStr(err.stack) else Undefined)
  {
    var extra := if development then [Field("details", OptStr(err.message)), Field("stack", OptStr(err.stack))]
                 else [];
    var b := ErrorBody(InternalMessage, extra);
    assert Prop(b, "details") == (if development then OptStr(err.message) else Undefined);
    assert Prop(b, "stack") == (if development then OptStr(err.stack) else Undefined) by {
      if development {
        LookupAt(extra, "stack", 1, 0);
      }
    }
    Response(500, b)
  }

  /** The `{field, message, value}` reported for one validation entry. */
  function Detail(e: FieldError): (d: JsValue)
    ensures Prop(d, "field") == Str(e.path)
    ensures Prop(d, "message") == Str(e.message)
    ensures Prop(d, "value") == e.value
  {
    var fields := [Field("field", Str(e.path)), Field("message", Str(e.message)), Field("value", e.value)];
    LookupAt(fields, "message", 1, 0);
    LookupAt(fields, "value", 2, 0);
    Obj(fields)
  }

  /** `createError(message, status = 500)`: a plain `Error` carrying a status;
      `stack` is the trace the runtime captures. */
  function CreateError(message: string, status: Option<int>, stack: string): (e: AppError)
    ensures e.status == Some(status.GetOr(500))
    ensures e.message == Some(message)
    ensures e.name == Some("Error") && e.code == None
  {
    AppError(Some("Error"), None, Some(status.GetOr(500)), Some(message), [], [], Some(stack))
  }

  /** An error built by `createError` with a non-zero status is answered with
      that status and its own message (the fallback text when it is empty);
      the default status is 500 with the caller's message, not the generic one. */
  lemma CreatedErrorClassified(message: string, status: Option<int>, stack: string, development: bool)
    requires status.GetOr(500) > 0
    ensures var r := Classify(CreateError(message, status, stack), development);
      && r.status == status.GetOr(500)
      && Prop(r.body, "error") == Str(if message != "" then message else AppFallbackMessage)
  {
  }

  /** `unknownEndpoint`: 404 naming the requested path and method. */
  function UnknownEndpoint(path: string, verb: string): (r: Response)
    ensures r.status == 404
    ensures Prop(r.body, "success") == Bool(false)
    ensures Prop(r.body, "error") == Str(NotFoundMessage)
    ensures Prop(r.body, "path") == Str(path) && Prop(r.body, "method") == Str(verb)
  {
    var b := ErrorBody(NotFoundMessage, [Field("path", Str(path)), Field("method", Str(verb))]);
    assert Prop(b, "path") == Str(path);
    LookupAt([Field("path", Str(path)), Field("method", Str(verb))], "method", 1, 0);
    assert Prop(b, "method") == Str(verb);
    Response(404, b)
  }
}

=== FILE: seqs.dfy ===
/** Generic sequence helpers: JavaScript's `Array.prototype.filter` and
    `String.prototype.replace` with a character class both reduce to Filter. */
module Seqs {

  /** The elements of `s` satisfying `p`, in their original order. */
  function Filter<T>(p: T -> bool, s: seq<T>): (r: seq<T>)
    ensures |r| <= |s|
    ensures forall i :: 0 <= i < |r| ==> p(r[i])
    ensures forall i :: 0 <= i < |r| ==> r[i] in s
    ensures forall i :: 0 <= i < |s| && p(s[i]) ==> s[i] in r
  {
    if s == [] then [] else (if p(s[0]) then [s[0]] else []) + Filter(p, s[1..])
  }

  /** Filtering distributes over concatenation, so it keeps relative order. */
  lemma {:induction false} FilterConcat<T>(p: T -> bool, a: seq<T>, b: seq<T>)
    ensures Filter(p, a + b) == Filter(p, a) + Filter(p, b)
  {
    if a == [] {
      assert a + b == b;
    } else {
      assert (a + b)[1..] == a[1..] + b;
      FilterConcat(p, a[1..], b);
    }
  }

  /** Filtering keeps a sequence whose elements all pass. */
  lemma {:induction false} FilterKeepsAll<T>(p: T -> bool, s: seq<T>)
    requires forall i :: 0 <= i < |s| ==> p(s[i])
    ensures Filter(p, s) == s
  {
    if s != [] {
      FilterKeepsAll(p, s[1..]);
    }
  }

  /** Filtering drops a sequence whose elements all fail. */
  lemma {:induction false} FilterDropsAll<T>(p: T -> bool, s: seq<T>)
    requires forall i :: 0 <= i < |s| ==> !p(s[i])
    ensures Filter(p, s) == []
  {
    if s != [] {
      FilterDropsAll(p, s[1..]);
    }
  }

  /** Filtering out exactly one position leaves what lies before and after it. */
  lemma FilterRemoveOne<T>(p: T -> bool, s: seq<T>, i: nat)
    requires i < |s| && !p(s[i])
    requires forall j :: 0 <= j < |s| && j != i ==> p(s[j])
    ensures Filter(p, s) == s[..i] + s[i + 1..]
  {
    var pre, post := s[..i], s[i + 1..];
    assert s == pre + ([s[i]] + post);
    assert Filter(p, pre) == pre by {
      forall j | 0 <= j < |pre|
        ensures p(pre[j])
      {
        assert pre[j] == s[j];
      }
      FilterKeepsAll(p, pre);
    }
    assert Filter(p, post) == post by {
      forall j | 0 <= j < |post|
        ensures p(post[j])
      {
        assert post[j] == s[i + 1 + j];
      }
      FilterKeepsAll(p, post);
    }
    assert Filter(p, [s[i]] + post) == post by {
      FilterDropsAll(p, [s[i]]);
      FilterConcat(p, [s[i]], post);
    }
    FilterConcat(p, pre, [s[i]] + post);
  }

  /** Each element keeps its multiplicity when it passes and disappears when it fails. */
  lemma {:induction false} FilterMultiplicity<T>(p: T -> bool, s: seq<T>, x: T)
    ensures multiset(Filter(p, s))[x] == if p(x) then multiset(s)[x] else 0
  {
    if s != [] {
      FilterMultiplicity(p, s[1..], x);
      assert s == [s[0]] + s[1..];
      assert multiset(s) == multiset([s[0]]) + multiset(s[1..]);
    }
  }

  /** `R` holds between every element and each later one. */
  ghost predicate Pairwise<T>(R: (T, T) -> bool, s: seq<T>) {
    forall i, j :: 0 <= i < j < |s| ==> R(s[i], s[j])
  }

  /** A filtered sequence keeps every pairwise relation of the original. */
  lemma {:induction false} FilterPairwise<T>(R: (T, T) -> bool, p: T -> bool, s: seq<T>)
    requires Pairwise(R, s)
    ensures Pairwise(R, Filter(p, s))
  {
    if s != [] {
      var rest := Filter(p, s[1..]);
      FilterPairwise(R, p, s[1..]);
      if p(s[0]) {
        var r := [s[0]] + rest;
        forall i, j | 0 <= i < j < |r|
          ensures R(r[i], r[j])
        {
          if i == 0 {
            assert r[j] == rest[j - 1] && rest[j - 1] in s[1..];
            var k :| 0 <= k < |s[1..]| && s[1..][k] == rest[j - 1];
            assert s[k + 1] == r[j];
          } else {
            assert r[i] == rest[i - 1] && r[j] == rest[j - 1];
          }
        }
      }
    }
  }
}

=== FILE: text.dfy ===
/** Character classes of JavaScript regular expressions and decimal text. */
module Text {
  import opened Seqs

  /** `\d`: an ASCII decimal digit. */
  predicate IsDigit(c: char) {
    '0' <= c <= '9'
  }

  /** `\s`: ECMAScript WhiteSpace and LineTerminator code points. */
  predicate IsWhitespace(c: char) {
    || ('\U{0009}' <= c <= '\U{000D}')
    || c == '\U{0020}' || c == '\U{00A0}' || c == '\U{1680}'
    || ('\U{2000}' <= c <= '\U{200A}')
    || c == '\U{2028}' || c == '\U{2029}' || c == '\U{202F}' || c == '\U{205F}'
    || c == '\U{3000}' || c == '\U{FEFF}'
  }

  predicate NotWhitespace(c: char) {
    !IsWhitespace(c)
  }

  predicate AllDigits(s: string) {
    forall i :: 0 <= i < |s| ==> IsDigit(s[i])
  }

  /** `s.replace(/\D/g, '')`: the digits of `s`, in order. */
  function Digits(s: string): (r: string)
    ensures AllDigits(r)
    ensures |r| <= |s|
  {
    Filter(IsDigit, s)
  }

  /** `s.replace(/\s+/g, '')`: `s` without its whitespace. */
  function StripWhitespace(s: string): (r: string)
    ensures forall i :: 0 <= i < |r| ==> !IsWhitespace(r[i])
    ensures |r| <= |s|
  {
    Filter(NotWhitespace, s)
  }

  /** Digits are never whitespace, so a digit string survives whitespace removal. */
  lemma StripDigits(s: string)
    requires AllDigits(s)
    ensures StripWhitespace(s) == s
  {
    FilterKeepsAll(NotWhitespace, s);
  }

  /** Whitespace inserted anywhere disappears again. */
  lemma StripInserted(a: string, w: string, b: string)
    requires forall i :: 0 <= i < |w| ==> IsWhitespace(w[i])
    ensures StripWhitespace(a + w + b) == StripWhitespace(a + b)
  {
    FilterConcat(NotWhitespace, a + w, b);
    FilterConcat(NotWhitespace, a, w);
    FilterConcat(NotWhitespace, a, b);
    FilterDropsAll(NotWhitespace, w);
  }

  /** `c.repeat(n)` for a one-character string. */
  function Repeat(c: char, n: nat): (r: string)
    ensures |r| == n
    ensures forall i :: 0 <= i < n ==> r[i] == c
  {
    if n == 0 then "" else Repeat(c, n - 1) + [c]
  }

  function DigitChar(d: nat): (c: char)
    requires d < 10
    ensures IsDigit(c)
  {
    ['0', '1', '2', '3', '4', '5', '6', '7', '8', '9'][d]
  }

  function DigitValue(c: char): (d: nat)
    requires IsDigit(c)
    ensures d < 10
  {
    (c - '0') as nat
  }

  /** Template-literal rendering `${n}` of a non-negative integer. */
  function NatToString(n: nat): (r: string)
    ensures 0 < |r|
    ensures AllDigits(r)
  {
    if n < 10 then [DigitChar(n)] else NatToString(n / 10) + [DigitChar(n % 10)]
  }

  /** `parseInt(s, 10)` on a string of decimal digits. */
  function ParseDigits(s: string): (n: nat)
    requires AllDigits(s)
  {
    if s == [] then 0 else 10 * ParseDigits(s[..|s| - 1]) + DigitValue(s[|s| - 1])
  }

  /** A two-digit string parses into 0..99. */
  lemma ParseTwoDigits(s: string)
    requires |s| == 2 && AllDigits(s)
    ensures ParseDigits(s) == 10 * DigitValue(s[0]) + DigitValue(s[1]) < 100
  {
    var head := s[..1];
    assert head[..0] == [] && head[0] == s[0];
    assert ParseDigits(head) == DigitValue(s[0]);
  }
}

=== FILE: use_cards.dfy ===
/** The `useCards` hook (front-end/src/hooks/useCards.js): the card list kept
    locally and updated from each response without refetching. */
module UseCards {
  import opened Wrappers
  import opened Seqs
  import opened Text
  import opened Js
  import opened Http
  import CardModel
  import CardController

  datatype CardsState = CardsState(cards: seq<JsValue>, loading: bool, error: Option<string>, hasLoaded: bool)

  /** `makeRequest`: a non-ok status is a failure, 204 resolves to
      `{success: true}` without reading the body, anything else to the
      parsed body. */
  function MakeRequest(reply: Reply): (r: Result<JsValue, string>)
    ensures reply.NetworkFailure? ==> r == Failure(reply.message)
    ensures reply.Reply? && !reply.Ok() ==>
      r == Failure("HTTP " + NatToString(reply.status) + ": " + reply.statusText)
    ensures reply.Ok() && reply.status == 204 ==> r == Success(Obj([Field("success", Bool(true))]))
    ensures reply.Ok() && reply.status != 204 ==>
      match reply.body
      case Parsed(j) => r == Success(j)
      case Unparsable(m) => r == Failure(m)
  {
    match reply
    case NetworkFailure(m) => Failure(m)
    case Reply(status, statusText, body) =>
      if !reply.Ok() then Failure("HTTP " + NatToString(status) + ": " + statusText)
      else if status == 204 then Success(Obj([Field("success", Bool(true))]))
      else match body
        case Parsed(j) => Success(j)
        case Unparsable(m) => Failure(m)
  }

  /** `response.data` is an array or falsy, so `response.data || []` is a list. */
  predicate ListShaped(response: JsValue) {
    !Truthy(Prop(response, "data")) || Prop(response, "data").Arr?
  }

  /** The GET payload suits `fetchCards`: when it parses, its `data` is a list. */
  predicate ListPayload(reply: Reply) {
    MakeRequest(reply).Success? ==> ListShaped(MakeRequest(reply).value)
  }

  /** What `fetchCards` reads out of a parsed response: `response.data` (a
      TypeError on a `null` response), then, for a non-empty list, the first
      card's `_id` (a TypeError when that card is `null`), and finally the
      list `response.data || []`. */
  function CardList(response: JsValue): (r: Result<seq<JsValue>, string>)
    requires ListShaped(response)
    ensures Nullish(response) ==> r == Failure(ReadError(response, "data"))
    ensures !Nullish(response) ==>
      var data := Prop(response, "data");
      && (!Truthy(data) ==> r == Success([]))
      && (data.Arr? && data.items != [] && Nullish(data.items[0]) ==>
            r == Failure(ReadError(data.items[0], "_id")))
      && (data.Arr? && (data.items == [] || !Nullish(data.items[0])) ==> r == Success(data.items))
  {
    match Get(response, "data")
    case Failure(m) => Failure(m)
    case Success(data) =>
      if data.Arr? && data.items != [] && Nullish(data.items[0]) then
        Failure(ReadError(data.items[0], "_id"))
      else
        Success(Or(data, Arr([])).items)
  }

  /** `fetchCards`: success replaces the list with `response.data || []` and
      marks the list loaded; a failure, whether thrown by the request or by
      reading the response, empties the list and records the message. Loading
      is over either way. */
  function FetchCards(st: CardsState, reply: Reply): (r: CardsState)
    requires ListPayload(reply)
    ensures !r.loading
    ensures st.hasLoaded ==> r.hasLoaded
    ensures match MakeRequest(reply)
      case Success(j) =>
        (match CardList(j)
         case Success(cards) => r.cards == cards && r.error == None && r.hasLoaded
         case Failure(m) => r.cards == [] && r.error == Some(m) && r.hasLoaded == st.hasLoaded)
      case Failure(m) =>
        r.error == Some(m) && r.cards == [] && r.hasLoaded == st.hasLoaded
  {
    var read := match MakeRequest(reply)
      case Success(j) => CardList(j)
      case Failure(m) => Failure(m);
    match read
    case Success(cards) =>
      st.(cards := cards, error := None, hasLoaded := true, loading := false)
    case Failure(m) =>
      st.(cards := [], error := Some(m), loading := false)
  }

  /** `addCard`: success puts `response.data` in front of the list; a failure,
      including the TypeError of reading `data` off a `null` response, keeps
      the list, records the message and rethrows. */
  function AddCard(st: CardsState, reply: Reply): (r: (CardsState, Result<JsValue, string>))
    ensures r.0.loading == st.loading && r.0.hasLoaded == st.hasLoaded
    ensures match MakeRequest(reply)
      case Success(j) =>
        if Nullish(j) then
          r.0.cards == st.cards && r.0.error == Some(ReadError(j, "data")) && r.1 == Failure(ReadError(j, "data"))
        else
          r.0.cards == [Prop(j, "data")] + st.cards && r.0.error == None && r.1 == Success(j)
      case Failure(m) =>
        r.0.cards == st.cards && r.0.error == Some(m) && r.1 == Failure(m)
  {
    match MakeRequest(reply)
    case Failure(m) => (st.(error := Some(m)), Failure(m))
    case Success(j) =>
      match Get(j, "data")
      case Failure(m) => (st.(error := Some(m)), Failure(m))
      case Success(newCard) => (st.(cards := [newCard] + st.cards, error := None), Success(j))
  }

  /** `card._id !== cardId` */
  predicate OtherId(cardId: string, card: JsValue) {
    Prop(card, "_id") != Str(cardId)
  }

  /** How often `c` remains in `cards` once the cards with `_id` equal to
      `cardId` are removed. */
  function Dropped(cardId: string, cards: seq<JsValue>, c: JsValue): nat {
    if Prop(c, "_id") == Str(cardId) then 0 else multiset(cards)[c]
  }

  /** `deleteCard`: success drops the cards whose `_id` is `cardId`, keeping
      the others in order; failure keeps the list, records the message and
      rethrows. */
  function DeleteCard(st: CardsState, cardId: string, reply: Reply): (r: (CardsState, Result<JsValue, string>))
    ensures r.0.loading == st.loading && r.0.hasLoaded == st.hasLoaded
    ensures MakeRequest(reply).Success? ==>
      && r.0.error == None && r.1 == Success(Undefined)
      && (forall i :: 0 <= i < |r.0.cards| ==> Prop(r.0.cards[i], "_id") != Str(cardId))
      && (forall c :: multiset(r.0.cards)[c] == Dropped(cardId, st.cards, c))
    ensures MakeRequest(reply).Failure? ==>
      r.0.cards == st.cards && r.0.error == Some(MakeRequest(reply).error) && r.1 == MakeRequest(reply)
  {
    match MakeRequest(reply)
    case Success(_) =>
      var kept := Filter((c: JsValue) => OtherId(cardId, c), st.cards);
      assert forall c :: multiset(kept)[c] == Dropped(cardId, st.cards, c) by {
        forall c {
          FilterMultiplicity((c: JsValue) => OtherId(cardId, c), st.cards, c);
        }
      }
      (st.(cards := kept, error := None), Success(Undefined))
    case Failure(m) => (st.(error := Some(m)), Failure(m))
  }

  /** Deleting from `a + b` deletes from `a` and from `b` and keeps the two
      parts in place: the surviving cards stay in their original order. */
  lemma DeleteKeepsOrder(st: CardsState, cardId: string, reply: Reply, a: seq<JsValue>, b: seq<JsValue>)
    requires MakeRequest(reply).Success?
    ensures DeleteCard(st.(cards := a + b), cardId, reply).0.cards
         == DeleteCard(st.(cards := a), cardId, reply).0.cards + DeleteCard(st.(cards := b), cardId, reply).0.cards
  {
    FilterConcat((c: JsValue) => OtherId(cardId, c), a, b);
  }

  /** The server's `getAllCards` answer, read by `fetchCards`, makes the local
      list the stored documents as serialised, in order. */
  lemma FetchShowsStore(st: CardsState, store: CardController.Store)
    ensures var reply := Reply(200, "OK", Parsed(CardController.GetAllCards(store).body));
      && ListPayload(reply)
      && var r := FetchCards(st, reply);
      && r.error == None && r.hasLoaded && !r.loading
      && |r.cards| == |store|
      && forall i :: 0 <= i < |store| ==> r.cards[i] == CardModel.ToJson(store[i])
  {
  }

  /** Removal keys on `_id`: a card that only carries `id`, as the server's
      `toJSON` produces, is never removed locally. */
  lemma DeleteKeepsCardsWithoutUnderscoreId(st: CardsState, cardId: string, reply: Reply, card: JsValue)
    requires MakeRequest(reply).Success? && card in st.cards && Prop(card, "_id") == Undefined
    ensures card in DeleteCard(st, cardId, reply).0.cards
  {
    assert multiset(st.cards)[card] > 0;
  }

  /** `prevCards.map(card => card._id === cardId ? updatedCard : card)` */
  function Replace(cards: seq<JsValue>, cardId: string, updated: JsValue): (r: seq<JsValue>)
    ensures |r| == |cards|
    ensures forall i :: 0 <= i < |cards| ==>
      r[i] == if Prop(cards[i], "_id") == Str(cardId) then updated else cards[i]
  {
    seq(|cards|, i requires 0 <= i < |cards| =>
      if Prop(cards[i], "_id") == Str(cardId) then updated else cards[i])
  }

  /** `updateCard`: success replaces every card whose `_id` is `cardId` by
      `response.data`; a failure, including the TypeError of reading `data`
      off a `null` response, keeps the list, records the message and rethrows. */
  function UpdateCard(st: CardsState, cardId: string, reply: Reply): (r: (CardsState, Result<JsValue, string>))
    ensures r.0.loading == st.loading && r.0.hasLoaded == st.hasLoaded
    ensures match MakeRequest(reply)
      case Success(j) =>
        if Nullish(j) then
          r.0.cards == st.cards && r.0.error == Some(ReadError(j, "data")) && r.1 == Failure(ReadError(j, "data"))
        else
          && |r.0.cards| == |st.cards|
          && (forall i :: 0 <= i < |st.cards| && Prop(st.cards[i], "_id") == Str(cardId) ==>
                r.0.cards[i] == Prop(j, "data"))
          && (forall i :: 0 <= i < |st.cards| && Prop(st.cards[i], "_id") != Str(cardId) ==>
                r.0.cards[i] == st.cards[i])
          && r.0.error == None && r.1 == Success(j)
      case Failure(m) =>
        r.0.cards == st.cards && r.0.error == Some(m) && r.1 == Failure(m)
  {
    match MakeRequest(reply)
    case Failure(m) => (st.(error := Some(m)), Failure(m))
    case Success(j) =>
      match Get(j, "data")
      case Failure(m) => (st.(error := Some(m)), Failure(m))
      case Success(updated) => (st.(cards := Replace(st.cards, cardId, updated), error := None), Success(j))
  }

  /** One settled call of the hook. */
  datatype Action =
    | Fetch(reply: Reply)
    | Add(reply: Reply)
    | Delete(cardId: string, reply: Reply)
    | Update(cardId: string, reply: Reply)

  predicate Admissible(a: Action) {
    a.Fetch? ==> ListPayload(a.reply)
  }

  function Step(st: CardsState, a: Action): CardsState
    requires Admissible(a)
  {
    match a
    case Fetch(reply) => FetchCards(st, reply)
    case Add(reply) => AddCard(st, reply).0
    case Delete(id, reply) => DeleteCard(st, id, reply).0
    case Update(id, reply) => UpdateCard(st, id, reply).0
  }

  function Run(st: CardsState, actions: seq<Action>): CardsState
    requires forall i :: 0 <= i < |actions| ==> Admissible(actions[i])
    decreases |actions|
  {
    if actions == [] then st else Run(Step(st, actions[0]), actions[1..])
  }

  /** Once the list has loaded it stays loaded, whatever happens next. */
  lemma {:induction false} HasLoadedNeverReverts(st: CardsState, actions: seq<Action>)
    requires forall i :: 0 <= i < |actions| ==> Admissible(actions[i])
    requires st.hasLoaded
    ensures Run(st, actions).hasLoaded
    decreases |actions|
  {
    if actions != [] {
      HasLoadedNeverReverts(Step(st, actions[0]), actions[1..]);
    }
  }
}

=== FILE: use_fetch.dfy ===
/** The `useFetch` hook (front-end/src/hooks/useFetch.js) the application uses
    for its card list: each write is followed by a fresh GET of the list. */
module UseFetch {
  import opened Wrappers
  import opened Text
  import opened Js
  import opened Http
  import CardModel
  import CardController
  import UseCards

  datatype FetchState = FetchState(data: seq<JsValue>, error: Option<string>, loading: bool, hasLoaded: bool)

  /** The message `fetchData` and `deleteCard` throw for a non-ok status. */
  function StatusMessage(status: nat, statusText: string): string {
    "HTTP Error: " + NatToString(status) + " - " + statusText
  }

  /** What `fetchData` gets out of a reply: the parsed body of an ok response,
      or the message of the error thrown on the way. A 204 is parsed too. */
  function Read(reply: Reply): (r: Result<JsValue, string>)
    ensures reply.NetworkFailure? ==> r == Failure(reply.message)
    ensures reply.Reply? && !reply.Ok() ==> r == Failure(StatusMessage(reply.status, reply.statusText))
    ensures reply.Ok() && reply.body.Parsed? ==> r == Success(reply.body.json)
    ensures reply.Ok() && reply.body.Unparsable? ==> r == Failure(reply.body.message)
  {
    match reply
    case NetworkFailure(m) => Failure(m)
    case Reply(status, statusText, body) =>
      if !reply.Ok() then Failure(StatusMessage(status, statusText))
      else match body
        case Parsed(j) => Success(j)
        case Unparsable(m) => Failure(m)
  }

  predicate Replaces(verb: Option<string>) {
    verb != Some("POST") && verb != Some("DELETE")
  }

  /** `jsonData.data` is an array or nullish, so `jsonData.data ?? []` is a list. */
  predicate ListData(json: JsValue) {
    Nullish(Prop(json, "data")) || Prop(json, "data").Arr?
  }

  /** The list `jsonData.data ?? []` denotes. */
  function ListOf(json: JsValue): seq<JsValue>
    requires ListData(json)
  {
    var d := Coalesce(Prop(json, "data"), Arr([]));
    d.items
  }

  /** The reply suits the request: a replacing method gets a list back. */
  predicate Shaped(verb: Option<string>, reply: Reply) {
    Replaces(verb) && Read(reply).Success? ==> ListData(Read(reply).value)
  }

  /** `handleResponseData`: POST appends `jsonData.data || jsonData`, DELETE
      keeps the list, any other method (none meaning GET) replaces it by
      `jsonData.data ?? []`. Reading `data` off a `null` body throws a
      TypeError, except under DELETE, which reads nothing. */
  function HandleResponseData(data: seq<JsValue>, json: JsValue, verb: Option<string>): (r: Result<seq<JsValue>, string>)
    requires Replaces(verb) ==> ListData(json)
    ensures r.Failure? <==> verb != Some("DELETE") && Nullish(json)
    ensures r.Failure? ==> r.error == ReadError(json, "data")
    ensures verb == Some("POST") && r.Success? ==>
      && |r.value| == |data| + 1 && r.value[..|data|] == data
      && r.value[|data|] == (if Truthy(Prop(json, "data")) then Prop(json, "data") else json)
    ensures verb == Some("DELETE") ==> r == Success(data)
    ensures Replaces(verb) && r.Success? ==>
      && (Nullish(Prop(json, "data")) ==> r.value == [])
      && (Prop(json, "data").Arr? ==> r.value == Prop(json, "data").items)
  {
    if verb == Some("DELETE") then Success(data)
    else
      match Get(json, "data")
      case Failure(m) => Failure(m)
      case Success(d) =>
        if verb == Some("POST") then Success(data + [Or(d, json)])
        else Success(Coalesce(d, Arr([])).items)
  }

  /** `fetchData(customOptions)`: a successful reply goes through
      `handleResponseData` and marks the list loaded; a failure, thrown by the
      request or by `handleResponseData`, keeps the list and `hasLoaded`,
      records the message and rethrows. Loading is over either way. */
  function FetchData(st: FetchState, verb: Option<string>, reply: Reply): (r: (FetchState, Result<JsValue, string>))
    requires Shaped(verb, reply)
    ensures !r.0.loading
    ensures st.hasLoaded ==> r.0.hasLoaded
    ensures match Read(reply)
      case Success(j) =>
        (match HandleResponseData(st.data, j, verb)
         case Success(d) => r.0.data == d && r.0.error == None && r.0.hasLoaded && r.1 == Success(j)
         case Failure(m) =>
           r.0.data == st.data && r.0.error == Some(m) && r.0.hasLoaded == st.hasLoaded && r.1 == Failure(m))
      case Failure(m) =>
        r.0.data == st.data && r.0.error == Some(m) && r.0.hasLoaded == st.hasLoaded && r.1 == Failure(m)
  {
    var handled := match Read(reply)
      case Success(j) =>
        (match HandleResponseData(st.data, j, verb)
         case Success(d) => Success((d, j))
         case Failure(m) => Failure(m))
      case Failure(m) => Failure(m);
    match handled
    case Success(handledData) =>
      (st.(data := handledData.0, error := None, loading := false, hasLoaded := true), Success(handledData.1))
    case Failure(m) =>
      (st.(error := Some(m), loading := false), Failure(m))
  }

  /** `addCard`: a POST, then, if it settled without throwing, a GET of the
      whole list. On success the list is exactly what the GET returned and the
      POST's body is the result. A failing POST, including one whose body is
      `null`, changes nothing but the error, and no GET is made. */
  function AddCard(st: FetchState, post: Reply, get: Reply): (r: (FetchState, Result<JsValue, string>))
    requires Shaped(None, get)
    ensures !r.0.loading
    ensures Read(post).Failure? ==>
      r.0.data == st.data && r.0.error == Some(Read(post).error) && r.0.hasLoaded == st.hasLoaded
      && r.1 == Read(post)
    ensures Read(post).Success? && Nullish(Read(post).value) ==>
      var m := ReadError(Read(post).value, "data");
      r.0.data == st.data && r.0.error == Some(m) && r.0.hasLoaded == st.hasLoaded && r.1 == Failure(m)
    ensures Read(post).Success? && !Nullish(Read(post).value) ==>
      var posted := st.data + [Or(Prop(Read(post).value, "data"), Read(post).value)];
      match Read(get)
      case Success(j) =>
        if Nullish(j) then
          && r.0.data == posted && r.0.error == Some(ReadError(j, "data")) && r.0.hasLoaded
          && r.1 == Failure(ReadError(j, "data"))
        else
          r.0.data == ListOf(j) && r.0.error == None && r.0.hasLoaded && r.1 == Read(post)
      case Failure(m) =>
        r.0.data == posted && r.0.error == Some(m) && r.0.hasLoaded && r.1 == Failure(m)
  {
    var (afterPost, posted) := FetchData(st, Some("POST"), post);
    if posted.Failure? then (afterPost, posted)
    else
      var (afterGet, refreshed) := FetchData(afterPost, None, get);
      if refreshed.Failure? then (afterGet, refreshed) else (afterGet, posted)
  }

  /** `deleteCard`: the DELETE response is checked only for its status; a
      failure rethrows leaving the state untouched (no error is recorded), an
      ok status is followed by a GET of the whole list, whose failures,
      including a `null` body, are recorded and rethrown. */
  function DeleteCard(st: FetchState, del: Reply, get: Reply): (r: (FetchState, Result<JsValue, string>))
    requires Shaped(None, get)
    ensures del.NetworkFailure? ==> r == (st, Failure(del.message))
    ensures del.Reply? && !del.Ok() ==> r == (st, Failure(StatusMessage(del.status, del.statusText)))
    ensures del.Ok() ==> !r.0.loading
    ensures del.Ok() ==>
      match Read(get)
      case Success(j) =>
        if Nullish(j) then
          && r.0.data == st.data && r.0.error == Some(ReadError(j, "data")) && r.0.hasLoaded == st.hasLoaded
          && r.1 == Failure(ReadError(j, "data"))
        else
          r.0.data == ListOf(j) && r.0.error == None && r.0.hasLoaded && r.1 == Success(Undefined)
      case Failure(m) =>
        r.0.data == st.data && r.0.error == Some(m) && r.0.hasLoaded == st.hasLoaded && r.1 == Failure(m)
  {
    match del
    case NetworkFailure(m) => (st, Failure(m))
    case Reply(status, statusText, _) =>
      if !del.Ok() then (st, Failure(StatusMessage(status, statusText)))
      else
        var (afterGet, refreshed) := FetchData(st, None, get);
        if refreshed.Failure? then (afterGet, refreshed) else (afterGet, Success(Undefined))
  }

  /** One settled call of the hook. */
  datatype Action =
    | Fetch(verb: Option<string>, reply: Reply)
    | Add(post: Reply, get: Reply)
    | Delete(del: Reply, get: Reply)

  predicate Admissible(a: Action) {
    match a
    case Fetch(verb, reply) => Shaped(verb, reply)
    case Add(_, get) => Shaped(None, get)
    case Delete(_, get) => Shaped(None, get)
  }

  function Step(st: FetchState, a: Action): FetchState
    requires Admissible(a)
  {
    match a
    case Fetch(verb, reply) => FetchData(st, verb, reply).0
    case Add(post, get) => AddCard(st, post, get).0
    case Delete(del, get) => DeleteCard(st, del, get).0
  }

  function Run(st: FetchState, actions: seq<Action>): FetchState
    requires forall i :: 0 <= i < |actions| ==> Admissible(actions[i])
    decreases |actions|
  {
    if actions == [] then st else Run(Step(st, actions[0]), actions[1..])
  }

  /** `hasLoaded` turns true at the first successful response and stays so. */
  lemma {:induction false} HasLoadedNeverReverts(st: FetchState, actions: seq<Action>)
    requires forall i :: 0 <= i < |actions| ==> Admissible(actions[i])
    requires st.hasLoaded
    ensures Run(st, actions).hasLoaded
    decreases |actions|
  {
    if actions != [] {
      var a := actions[0];
      assert Step(st, a).hasLoaded by {
        match a
        case Fetch(verb, reply) =>
        case Add(post, get) =>
          var (s1, r1) := FetchData(st, Some("POST"), post);
          if r1.Success? {
            var _ := FetchData(s1, None, get);
          }
        case Delete(del, get) =>
          if del.Ok() {
            var _ := FetchData(st, None, get);
          }
      }
      HasLoadedNeverReverts(Step(st, a), actions[1..]);
    }
  }

  /** The server's `getAllCards` answer, read by `fetchData()`, makes the local
      list the stored documents as serialised, in order. */
  lemma RefreshShowsStore(st: FetchState, store: CardController.Store)
    ensures var reply := Reply(200, "OK", Parsed(CardController.GetAllCards(store).body));
      && Shaped(None, reply)
      && var data := FetchData(st, None, reply).0.data;
      && |data| == |store|
      && forall i :: 0 <= i < |store| ==> data[i] == CardModel.ToJson(store[i])
  {
  }

  /** The server's 201 answer to `createCard` has no `data` field, so a POST
      through `fetchData` appends the created document itself. */
  lemma PostAppendsCreatedDocument(data: seq<JsValue>, c: CardModel.Card)
    ensures HandleResponseData(data, CardModel.ToJson(c), Some("POST")) == Success(data + [CardModel.ToJson(c)])
  {
  }

  /** The two hooks read a reply alike except for an ok 204, which `useCards`
      answers with `{success: true}` without reading the body and `useFetch`
      parses like any other; only the wording of a non-ok status differs. */
  lemma ReadersAgree(reply: Reply)
    ensures !(reply.Ok() && reply.status == 204) ==>
      && (UseCards.MakeRequest(reply).Success? <==> Read(reply).Success?)
      && (Read(reply).Success? ==> UseCards.MakeRequest(reply).value == Read(reply).value)
      && (reply.NetworkFailure? || reply.Ok() ==> UseCards.MakeRequest(reply) == Read(reply))
    ensures reply.Ok() && reply.status == 204 ==>
      && UseCards.MakeRequest(reply) == Success(Obj([Field("success", Bool(true))]))
      && (Read(reply).Success? <==> reply.body.Parsed?)
    ensures reply.Reply? && !reply.Ok() ==>
      && UseCards.MakeRequest(reply) == Failure("HTTP " + NatToString(reply.status) + ": " + reply.statusText)
      && Read(reply) == Failure(StatusMessage(reply.status, reply.statusText))
  {
  }
}

=== FILE: wrappers.dfy ===
/** Failure-carrying values shared by every module of the model. */
module Wrappers {

  /** A value that may be absent (JavaScript `undefined`). */
  datatype Option<+T> = None | Some(value: T) {

    /** The wrapped value, or `default` when absent. */
    function GetOr(default: T): T {
      match this
      case Some(v) => v
      case None => default
    }
  }

  /** The outcome of an asynchronous JavaScript call: a resolved value or a
      rejection carrying the thrown error's message. */
  datatype Result<+R, +E> = Success(value: R) | Failure(error: E)
}
